=== FILE: README.md ===
# RPGFramework.DI container — a Dafny model

This project models the core of the RPGFramework.DI dependency-injection
container, `DIContainer` in `Runtime/Scripts/DIContainer.cs`. Callers bind
contract types (interfaces) to ways of producing objects. A binding can be:

- a transient, built anew by the concrete type's constructor on every resolve;
- a lazy singleton, built once on first read and shared afterwards;
- an instance, an object the caller supplied.

Each bind applies one of three re-registration policies: ErrorIfExists,
SkipIfExists or Overwrite. `Resolve(type)` works as follows:

- It refuses a type that is already on the per-thread resolution stack, and
  reports the stack, outermost first, with the repeated type appended.
- It walks the container's fallback chain for the first container that binds
  the type.
- It runs that binding. A constructed type's parameters are resolved, in
  order, through the container that owns the binding.

The constructor a type is built with is chosen once per container and cached.
It is the usable (not `[Obsolete]`) public constructor with the most
parameters, the earliest one when several tie.

Modules, one per file:

- `DITypes` (`types.dfy`): type tokens, objects, errors, and reflection as two
  fixed tables (constructors and interfaces per type).
- `ConstructorPlanner` (`planner.dfy`): FindBestConstructor and
  GetConstructorParams.
- `BindingRegistry` (`registry.dfy`): containers, bindings, plans, lazy cells,
  HandleExistingBinding, CacheConstructorAndParams, BindType, BindInstance,
  BindInterfacesToSelfSingleton, and the representation invariant `Valid`.
  Every bind preserves `Valid`, and every resolve needs it.
- `Resolver` (`resolver.dfy`): Resolve, the binding's factory call, the lazy
  singleton read, CreateInstance with its argument loop, and AsNonLazy. It also
  holds the facts about cycle reports.
- `ContainerProperties` (`properties.dfy`): properties relating several calls.
  These cover fallback shadowing, the three lifetimes, early singleton
  construction, the bound on a cycle report, and whether constructions use
  the planner's choice.
- `Scenarios` (`scenarios.dfy`): small concrete configurations with their
  outcomes proved.

How the model represents the program:

- **Fallback chain.** A fallback chain of containers is a sequence of nodes.
  Node 0 is the container `Resolve` is called on, and node `i + 1` is node
  `i`'s fallback.
- **Factories.** A binding's closure is represented by the data it captures.
  `Transient(c)` runs `CreateInstance(c)` on the owning node. `Singleton(cell)`
  reads a lazy cell. `Instance(obj)` returns `obj`.
- **Shared mutable state.** A `Heap` holds the lazy cells and a log of
  constructor invocations. An object built by the container is `Built(id)`,
  with `id` its position in the log, so fresh objects are new log entries.
- **Resolution stack.** The thread-static resolution stack becomes a value
  threaded through every call.
- **Lazy cells.** `Lazy<object>` with `LazyThreadSafetyMode.None` has four
  states: unforced, factory running, built, or failed.
  - The first failure is kept and re-raised on later reads.
  - A read while the cell's own factory runs raises `ReentrantSingleton`, and
    that failure is kept too.
- **Interfaces sharing one singleton.** `SingletonReadByOwnFactory` shows that
  when two interfaces bound by BindInterfacesToSelfSingleton share a cell, a
  constructor that asks for the other interface gets the lazy re-entrancy
  failure, not a circular-dependency report. This is because the stack holds
  contract types, and the second contract is not on it.

Facts about `DIContainer.cs` that shape the model:

- The resolution stack holds the requested contract types. The cycle check
  runs in `Resolve` before the binding is looked up (lines 148-153).
- The container injects through constructors only. It has no member
  injection, no disposal of the objects it builds, and no error for a
  misplaced inject marker.
- Constructor plans are cached per container (lines 53-54), not shared
  between containers.

## Model

| member | source | states |
|---|---|---|
| BindingRegistry.HandleExistingBinding | Runtime/Scripts/DIContainer.cs:186-204 | write when the contract is unbound or the policy is Overwrite; skip exactly when it is bound under SkipIfExists; throw DuplicateBinding exactly when it is bound under ErrorIfExists |
| BindingRegistry.CacheConstructorAndParams | Runtime/Scripts/DIContainer.cs:317-330 | fails with NoUsableConstructor exactly when the type has no cached plan and every constructor is obsolete; a cached plan is kept untouched; a new plan is the planner's best constructor and its parameter types; existing plans and bindings are unchanged |
| BindingRegistry.BindType | Runtime/Scripts/DIContainer.cs:206-225 | on a bound contract ErrorIfExists throws and SkipIfExists returns no handle, neither changing anything; the policy is applied before planning; otherwise an unplannable type throws without writing, and a plannable one is planned (earlier plans kept, only its own plan added) and bound (transient: no handle; singleton: a handle to one new unforced cell owned by this container), all other containers and bindings unchanged; preserves Valid and plan faithfulness |
| BindingRegistry.BindInstance | Runtime/Scripts/DIContainer.cs:227-235 | the same policy outcomes; when writing, binds the contract to the supplied object, nothing else changes, and no handle is returned |
| BindingRegistry.BindInterfacesToSelfSingleton | Runtime/Scripts/DIContainer.cs:237-255 | planning comes first and a failure there binds nothing; otherwise one new cell is created and a handle to it returned even if no interface is bound, and the container's plan cache gains at most the plan for the type while keeping every earlier plan; Overwrite binds every interface to the cell, SkipIfExists only the unbound ones, ErrorIfExists binds up to the first conflict and throws DuplicateBinding for it, leaving the earlier interfaces bound |
| BindingRegistry.BindEachSpec | Runtime/Scripts/DIContainer.cs:244-252 | the interface loop's resulting bindings and error for each policy, in closed form |
| BindingRegistry.BindEachWritesOnly | Runtime/Scripts/DIContainer.cs:244-252 | the interface loop leaves every binding either as it was or bound to the new cell |
| BindingRegistry.FirstConflict | Runtime/Scripts/DIContainer.cs:244-252 | the position where the ErrorIfExists loop throws: every earlier interface was unbound and not repeated, and the one there is bound or repeated |
| ConstructorPlanner.Usable | Runtime/Scripts/DIContainer.cs:274-276 | exactly the non-obsolete constructors, in enumeration order |
| ConstructorPlanner.Scan | Runtime/Scripts/DIContainer.cs:288-299 | the scan ends on the earliest constructor of maximal arity among those seen, since only a strictly larger count replaces the choice |
| ConstructorPlanner.FindBestConstructor | Runtime/Scripts/DIContainer.cs:272-302 | fails with NoUsableConstructor exactly when no constructor is usable; otherwise returns a usable constructor of maximal arity with no earlier usable one of equal arity |
| ConstructorPlanner.BestIsUnique | Runtime/Scripts/DIContainer.cs:288-301 | that choice is determined: two constructors that both satisfy it are the same |
| ConstructorPlanner.GetConstructorParams | Runtime/Scripts/DIContainer.cs:304-315 | the parameter types of the constructor, same count, same order; CacheConstructorAndParams builds every plan with it |
| Resolver.Lookup | Runtime/Scripts/DIContainer.cs:157-167 | finds the first container from the receiver on that binds the type, with its binding; none exactly when no container of the chain binds it |
| Resolver.Resolve | Runtime/Scripts/DIContainer.cs:144-175 | the stack is the same afterwards on every path; a type already on the stack throws CircularDependency(stack + [type]) with nothing changed; an unbound type throws MissingBinding with nothing changed; cells only move forward and the log only grows; a returned value is what the first binding of the type produces (the supplied object, the singleton cell's value, or a newly logged object of the transient's concrete type); when no singleton holds a kept failure, a cycle report starts with the current stack, then the requested type, ends with a repeated type, and holds only parameter types after that |
| Resolver.Invoke | Runtime/Scripts/DIContainer.cs:161-164 | calling an instance binding's factory returns the supplied object and changes nothing; a returned value is one the binding produces, and a transient binding's value is an object built during the call |
| Resolver.Force | Runtime/Scripts/DIContainer.cs:221-222 | the lazy read: a built cell returns its value and a failed one re-raises its error, both without building anything; a read while the cell's factory runs raises ReentrantSingleton and leaves the cell failed with it; a first successful read returns a newly built object of the cell's concrete type; a successful read leaves the cell built with the returned value, a failing one leaves it failed with the raised error |
| Resolver.CreateInstance | Runtime/Scripts/DIContainer.cs:257-270 | on success a fresh object of the concrete type, built by the cached constructor with one argument per cached parameter type, argument k being what resolving parameter type k through the owning container delivers, and every argument for a transient parameter is a distinct object built during the call |
| Resolver.ResolveArgs | Runtime/Scripts/DIContainer.cs:262-267 | on success one argument per parameter type, argument k being what resolving parameter type k through container i delivers; each transient parameter gets an object built during the call, later parameters later objects, so no two share one; the stack is restored |
| Resolver.AsNonLazy | Runtime/Scripts/DIContainer.cs:342-345 | on success the singleton's cell is built with the returned value; an already built cell is returned without change |
| Resolver.RepeatReport | Runtime/Scripts/DIContainer.cs:177-184 | the report built at a repeated type is the stack, outermost first, with the repeated type appended, and that type occurs earlier in it |
| ContainerProperties.ResolveRunsFirstBinding | Runtime/Scripts/DIContainer.cs:157-164 | resolve runs the factory of the first binding container, with the type pushed, and returns its outcome with the stack popped |
| ContainerProperties.LocalBindingShadows | Runtime/Scripts/DIContainer.cs:157-164 | a binding in the receiver wins over every fallback's binding |
| ContainerProperties.MissFallsBack | Runtime/Scripts/DIContainer.cs:159-166 | a type the receiver does not bind is looked up in its fallback |
| ContainerProperties.ResolveTransient | Runtime/Scripts/DIContainer.cs:215-218 | resolving a transient binding is CreateInstance on the owning container |
| ContainerProperties.ResolveSingleton | Runtime/Scripts/DIContainer.cs:221-222 | resolving a singleton binding is the read of its lazy cell |
| ContainerProperties.TransientBuildsFresh | Runtime/Scripts/DIContainer.cs:215-218 | a transient resolve returns an object not built before, of the bound concrete type |
| ContainerProperties.TransientResolvesDistinct | Runtime/Scripts/DIContainer.cs:215-218 | two transient resolves return two different objects |
| ContainerProperties.TransientsShareSingletonArgument | Runtime/Scripts/DIContainer.cs:215-222 | two successive transient builds whose constructor parameter is bound to a lazy singleton are different objects given the same object for that parameter |
| ContainerProperties.SingletonSharesValue | Runtime/Scripts/DIContainer.cs:221-222 | after a singleton is built, every resolve of any contract bound to its cell, from any container and stack, returns the same object and changes nothing |
| ContainerProperties.SingletonKeepsFailure | Runtime/Scripts/DIContainer.cs:221-222 | a singleton whose construction failed reports the same failure on the next resolve, without retrying |
| ContainerProperties.InstanceReturnsSupplied | Runtime/Scripts/DIContainer.cs:234 | an instance binding resolves to the supplied object and changes nothing |
| ContainerProperties.NonLazyFixesValue | Runtime/Scripts/DIContainer.cs:342-345 | after AsNonLazy succeeds, every resolve of a contract bound to that cell returns the object it built |
| ContainerProperties.CycleReportBounded | Runtime/Scripts/DIContainer.cs:146-153 | a top-level resolve that reports a cycle reports a chain that starts with the requested type, ends with a type seen earlier, repeats nothing else, and is at most two longer than the number of parameter types the plans mention |
| ContainerProperties.RepeatingChainBounded | Runtime/Scripts/DIContainer.cs:177-184 | a chain whose only repeat is its last entry, made of parameter types after its first entry, is bounded by the number of parameter types plus two |
| ContainerProperties.EmptyChainValid | Runtime/Scripts/DIContainer.cs:62-68 | freshly constructed containers satisfy the invariant resolution needs |
| ContainerProperties.ConstructionUsesBestConstructor | Runtime/Scripts/DIContainer.cs:257-270 | an object built through a plan the planner computed (every bind keeps all plans so, by PlansFaithful) was built with the planner's best constructor and one argument per parameter |
| Scenarios.PlannerSkipsObsoleteAndKeepsEarliest | Runtime/Scripts/DIContainer.cs:272-302 | with an obsolete three-parameter constructor and two usable two-parameter ones, the earlier two-parameter one is chosen |
| Scenarios.ServicesShareLogger | Runtime/Scripts/DIContainer.cs:213-224 | with a singleton logger and a transient service needing it, the first resolve builds the logger then the service, the second builds only another service, and both services get the same logger |
| Scenarios.CycleIsReported | Runtime/Scripts/DIContainer.cs:144-184 | when A needs B and B needs A, resolving A reports A, B, A and builds nothing |
| Scenarios.CycleInnerRequest | Runtime/Scripts/DIContainer.cs:144-153 | in that configuration, B requested while A is being built reports A, B, A, raised when A is requested again |
| Scenarios.FallbackBuildsThroughOwner | Runtime/Scripts/DIContainer.cs:257-270 | a fallback's transient resolves its parameters through the fallback, so a type bound only in the child is missing to it |
| Scenarios.SingletonReadByOwnFactory | Runtime/Scripts/DIContainer.cs:237-255 | a shared cell whose constructor needs another of its interfaces fails with the lazy re-entrancy error, which the cell keeps |
| Scenarios.ErrorIfExistsLeavesEarlierInterfacesBound | Runtime/Scripts/DIContainer.cs:244-252 | under ErrorIfExists the interface before the conflict stays bound to the new cell when the bind throws |

## Left out

- The twelve public bind methods (lines 79-137) only forward to BindType, BindInstance and BindInterfacesToSelfSingletonInternal with a fixed policy. The model exposes the policy as a parameter instead.
- `Resolve<T>` (line 139-142) is a cast over `Resolve(Type)`. Types are tokens, so there is no cast to model.
- The `default` arm of HandleExistingBinding (line 201-202) cannot be reached with the three-valued policy type.
- Exception message text is not modelled, only the kind of error and, for cycles, the chain of types.
- The KeyNotFound exception the cache indexer at line 259 would raise cannot occur. Every bind plans the concrete type before storing a factory that uses it, and the `Valid` invariant carries that fact.
- The constructor and parameter caches (lines 53-54) are one map of plans, because they are always written together.
- Reflection is two fixed tables. A constructor is its `[Obsolete]` flag and its parameter types. Constructor bodies are not modelled and never throw, so no TargetInvocationException wrapping is modelled either.
- Threading is not modelled: the thread-static stack is one threaded value, and concurrent first reads of a singleton are not modelled.
- Fallback cycles are not modelled: a chain is a finite sequence, so it cannot loop.
- SetFallback, GetFallback and TryGetBinding (lines 70-77) are not modelled on their own. The chain is a sequence and Lookup stands for the walk.
- NullDIContainer is not part of this model. The end of the chain stands for "no fallback".
- The editor tooling, installers, the Inject attributes and InjectInfo are not part of this model.
- Resolver.AsNonLazy: states only that a successful call leaves the cell built. A failing call leaves the cell failed, which Resolver.Force states.
- ContainerProperties.CycleReportBounded: assumes no singleton holds a kept failure (`NoFaults`). A kept failure may be a cycle report raised under another stack.

=== FILE: planner.dfy ===
/** The construction planner: which public constructor the container invokes
    for a concrete type, and the ordered parameter types it must resolve. */
module ConstructorPlanner {
  import opened DITypes

  /** Positions, in enumeration order, of the constructors not marked [Obsolete]. */
  function Usable(ctors: seq<Ctor>): (idx: seq<nat>)
    ensures forall m :: 0 <= m < |idx| ==> idx[m] < |ctors| && !ctors[idx[m]].obsolete
    ensures forall j :: 0 <= j < |ctors| && !ctors[j].obsolete ==> j in idx
    ensures forall m, n :: 0 <= m < n < |idx| ==> idx[m] < idx[n]
  {
    if |ctors| == 0 then []
    else
      var front := Usable(ctors[..|ctors| - 1]);
      if ctors[|ctors| - 1].obsolete then front else front + [|ctors| - 1]
  }

  /** `k` is the constructor the container must use: not obsolete, of maximal
      parameter count among the usable ones, and the earliest of that count. */
  ghost predicate IsBest(ctors: seq<Ctor>, k: nat)
  {
    && k < |ctors|
    && !ctors[k].obsolete
    && (forall j :: 0 <= j < |ctors| && !ctors[j].obsolete ==> |ctors[j].params| <= |ctors[k].params|)
    && (forall j :: 0 <= j < k && !ctors[j].obsolete ==> |ctors[j].params| < |ctors[k].params|)
  }

  /** `best` is the earliest constructor of maximal arity among `idx[..n]`. */
  ghost predicate BestSoFar(ctors: seq<Ctor>, idx: seq<nat>, n: nat, best: nat)
    requires n <= |idx|
    requires forall m :: 0 <= m < |idx| ==> idx[m] < |ctors|
  {
    && best < |ctors|
    && best in idx[..n]
    && forall m :: 0 <= m < n ==>
         && |ctors[idx[m]].params| <= |ctors[best].params|
         && (idx[m] < best ==> |ctors[idx[m]].params| < |ctors[best].params|)
  }

  /** The scan over the usable constructors: a later constructor replaces the
      current choice only when it has strictly more parameters. */
  function Scan(ctors: seq<Ctor>, idx: seq<nat>, n: nat, best: nat): (r: nat)
    requires forall m :: 0 <= m < |idx| ==> idx[m] < |ctors|
    requires forall m, m' :: 0 <= m < m' < |idx| ==> idx[m] < idx[m']
    requires 1 <= n <= |idx|
    requires BestSoFar(ctors, idx, n, best)
    ensures BestSoFar(ctors, idx, |idx|, r)
    decreases |idx| - n
  {
    if n == |idx| then best
    else if |ctors[idx[n]].params| > |ctors[best].params| then
      assert idx[..n + 1] == idx[..n] + [idx[n]];
      Scan(ctors, idx, n + 1, idx[n])
    else
      assert idx[..n + 1] == idx[..n] + [idx[n]];
      Scan(ctors, idx, n + 1, best)
  }

  /** FindBestConstructor: fails when no usable constructor remains, takes the
      only one when there is one, and otherwise scans for the most parameters. */
  function FindBestConstructor(refl: Reflection, concrete: TypeId): (r: Result<nat>)
    ensures r.Err? <==> forall j :: 0 <= j < |refl.ConstructorsOf(concrete)| ==> refl.ConstructorsOf(concrete)[j].obsolete
    ensures r.Err? ==> r.error == NoUsableConstructor(concrete)
    ensures r.Ok? ==> IsBest(refl.ConstructorsOf(concrete), r.value)
  {
    var ctors := refl.ConstructorsOf(concrete);
    var usable := Usable(ctors);
    if |usable| == 0 then
      Err(NoUsableConstructor(concrete))
    else if |usable| == 1 then
      OnlyUsableIsBest(ctors);
      Ok(usable[0])
    else
      var k := Scan(ctors, usable, 1, usable[0]);
      ScanResultIsBest(ctors, k);
      Ok(k)
  }

  lemma OnlyUsableIsBest(ctors: seq<Ctor>)
    requires |Usable(ctors)| == 1
    ensures IsBest(ctors, Usable(ctors)[0])
  {
    var usable := Usable(ctors);
    forall j | 0 <= j < |ctors| && !ctors[j].obsolete
      ensures j == usable[0]
    {
      assert j in usable;
    }
  }

  lemma ScanResultIsBest(ctors: seq<Ctor>, k: nat)
    requires BestSoFar(ctors, Usable(ctors), |Usable(ctors)|, k)
    ensures IsBest(ctors, k)
  {
    var usable := Usable(ctors);
    assert usable[..|usable|] == usable;
    forall j | 0 <= j < |ctors| && !ctors[j].obsolete
      ensures |ctors[j].params| <= |ctors[k].params|
      ensures j < k ==> |ctors[j].params| < |ctors[k].params|
    {
      var m :| 0 <= m < |usable| && usable[m] == j;
    }
  }

  /** At most one constructor satisfies IsBest, so the planner's choice is determined. */
  lemma BestIsUnique(ctors: seq<Ctor>, k1: nat, k2: nat)
    requires IsBest(ctors, k1) && IsBest(ctors, k2)
    ensures k1 == k2
  {
  }

  /** GetConstructorParams: a new array of the constructor's parameter
      types, filled position by position. */
  function GetConstructorParams(ctor: Ctor): (types: seq<TypeId>)
    ensures |types| == |ctor.params|
    ensures forall i :: 0 <= i < |types| ==> types[i] == ctor.params[i]
  {
    seq(|ctor.params|, i requires 0 <= i < |ctor.params| => ctor.params[i])
  }
}

=== FILE: properties.dfy ===
/** Properties of the container relating several calls: which node's binding
    a resolve uses, the three lifetimes, the early build of a singleton, the
    shape and size of a cycle report, and the planner's choice being the one
    constructions use. */
module ContainerProperties {
  import opened DITypes
  import opened ConstructorPlanner
  import opened BindingRegistry
  import opened Resolver

  // ---------------------------------------------------------------------------
  // The fallback chain

  /** Resolve runs the factory of the first node, from the receiver on, that
      binds the type, against that node, with the type pushed on the stack. */
  lemma ResolveRunsFirstBinding(chain: seq<Node>, from: nat, t: TypeId, heap: Heap, stack: seq<TypeId>)
    requires from < |chain| && Valid(chain, heap.cells)
    requires t !in stack && Lookup(chain, from, t).Some?
    ensures var f := Lookup(chain, from, t).value;
            var inner := Invoke(chain, f, heap, stack + [t]);
            Resolve(chain, from, t, heap, stack) == Outcome(inner.res, inner.heap, stack)
  {
  }

  /** A binding in the receiver shadows every fallback's binding of the same type. */
  lemma LocalBindingShadows(chain: seq<Node>, from: nat, t: TypeId)
    requires from < |chain| && t in chain[from].bindings
    ensures Lookup(chain, from, t) == Some(Found(from, chain[from].bindings[t]))
  {
  }

  /** A type the receiver does not bind is looked up in the fallback. */
  lemma MissFallsBack(chain: seq<Node>, from: nat, t: TypeId)
    requires from < |chain| && t !in chain[from].bindings
    ensures Lookup(chain, from, t) == Lookup(chain, from + 1, t)
  {
  }

  /** Resolving a transiently bound type runs the owner's CreateInstance. */
  lemma ResolveTransient(chain: seq<Node>, from: nat, t: TypeId, heap: Heap, stack: seq<TypeId>, i: nat, c: TypeId)
    requires from < |chain| && Valid(chain, heap.cells)
    requires t !in stack && Lookup(chain, from, t) == Some(Found(i, Transient(c)))
    ensures i < |chain| && c in chain[i].plans
    ensures var inner := CreateInstance(chain, i, c, heap, stack + [t]);
            Resolve(chain, from, t, heap, stack) == Outcome(inner.res, inner.heap, stack)
  {
    assert BindingValid(chain, heap.cells, i, Transient(c));
    ResolveRunsFirstBinding(chain, from, t, heap, stack);
  }

  /** Resolving a type bound to a lazy singleton reads the cell. */
  lemma ResolveSingleton(chain: seq<Node>, from: nat, t: TypeId, heap: Heap, stack: seq<TypeId>, i: nat, cid: nat)
    requires from < |chain| && Valid(chain, heap.cells)
    requires t !in stack && Lookup(chain, from, t) == Some(Found(i, Singleton(cid)))
    ensures cid < |heap.cells|
    ensures var inner := Force(chain, cid, heap, stack + [t]);
            Resolve(chain, from, t, heap, stack) == Outcome(inner.res, inner.heap, stack)
  {
    assert BindingValid(chain, heap.cells, i, Singleton(cid));
    ResolveRunsFirstBinding(chain, from, t, heap, stack);
  }

  // ---------------------------------------------------------------------------
  // Lifetimes

  /** A transient binding builds a new object on each resolve: one that was
      not in the construction log before, of the bound concrete type. */
  lemma TransientBuildsFresh(chain: seq<Node>, from: nat, t: TypeId, heap: Heap, stack: seq<TypeId>, i: nat, c: TypeId)
    requires from < |chain| && Valid(chain, heap.cells)
    requires t !in stack && Lookup(chain, from, t) == Some(Found(i, Transient(c)))
    ensures var o := Resolve(chain, from, t, heap, stack);
            o.res.Ok? ==>
              && o.res.value.Built?
              && |heap.made| <= o.res.value.id < |o.heap.made|
              && o.heap.made[o.res.value.id].concrete == c
  {
    ResolveTransient(chain, from, t, heap, stack, i, c);
  }

  /** Two resolves of a transient binding yield two different objects. */
  lemma TransientResolvesDistinct(chain: seq<Node>, from: nat, t: TypeId, heap: Heap, stack: seq<TypeId>, i: nat, c: TypeId)
    requires from < |chain| && Valid(chain, heap.cells)
    requires t !in stack && Lookup(chain, from, t) == Some(Found(i, Transient(c)))
    ensures var o1 := Resolve(chain, from, t, heap, stack);
            var o2 := Resolve(chain, from, t, o1.heap, o1.stack);
            o1.res.Ok? && o2.res.Ok? ==> o1.res.value != o2.res.value
  {
    var o1 := Resolve(chain, from, t, heap, stack);
    TransientBuildsFresh(chain, from, t, heap, stack, i, c);
    TransientBuildsFresh(chain, from, t, o1.heap, o1.stack, i, c);
  }

  /** Two transient builds of one type whose constructor's parameter `k` is
      bound (from the owner) to a lazy singleton are two different objects
      that received the same object as argument `k`. */
  lemma TransientsShareSingletonArgument(chain: seq<Node>, from: nat, t: TypeId, heap: Heap, stack: seq<TypeId>,
                                         i: nat, c: TypeId, k: nat, j: nat, cid: nat)
    requires from < |chain| && Valid(chain, heap.cells)
    requires t !in stack && Lookup(chain, from, t) == Some(Found(i, Transient(c)))
    requires i < |chain| && c in chain[i].plans && k < |chain[i].plans[c].params|
    requires Lookup(chain, i, chain[i].plans[c].params[k]) == Some(Found(j, Singleton(cid)))
    ensures var o1 := Resolve(chain, from, t, heap, stack);
            var o2 := Resolve(chain, from, t, o1.heap, stack);
            o1.res.Ok? && o2.res.Ok? ==>
              && o1.res.value.Built? && o2.res.value.Built?
              && o1.res.value != o2.res.value
              && o1.res.value.id < |o2.heap.made| && o2.res.value.id < |o2.heap.made|
              && k < |o2.heap.made[o1.res.value.id].args| && k < |o2.heap.made[o2.res.value.id].args|
              && o2.heap.made[o1.res.value.id].args[k] == o2.heap.made[o2.res.value.id].args[k]
  {
    var o1 := Resolve(chain, from, t, heap, stack);
    var o2 := Resolve(chain, from, t, o1.heap, stack);
    if o1.res.Ok? && o2.res.Ok? {
      TransientResolvesDistinct(chain, from, t, heap, stack, i, c);
      TransientArgIsCellValue(chain, from, t, heap, stack, i, c, k, j, cid);
      TransientArgIsCellValue(chain, from, t, o1.heap, stack, i, c, k, j, cid);
      assert StateStep(o1.heap.cells[cid].state, o2.heap.cells[cid].state);
      assert o2.heap.made[o1.res.value.id] == o1.heap.made[o1.res.value.id];
    }
  }

  /** A transient build's argument `k`, bound to a lazy singleton, is the
      value that singleton's cell holds afterwards. */
  lemma TransientArgIsCellValue(chain: seq<Node>, from: nat, t: TypeId, heap: Heap, stack: seq<TypeId>,
                                i: nat, c: TypeId, k: nat, j: nat, cid: nat)
    requires from < |chain| && Valid(chain, heap.cells)
    requires t !in stack && Lookup(chain, from, t) == Some(Found(i, Transient(c)))
    requires i < |chain| && c in chain[i].plans && k < |chain[i].plans[c].params|
    requires Lookup(chain, i, chain[i].plans[c].params[k]) == Some(Found(j, Singleton(cid)))
    ensures var o := Resolve(chain, from, t, heap, stack);
            o.res.Ok? ==>
              && o.res.value == Built(|o.heap.made| - 1)
              && |heap.made| < |o.heap.made|
              && k < |o.heap.made[|o.heap.made| - 1].args|
              && cid < |o.heap.cells|
              && o.heap.cells[cid].state == Forced(o.heap.made[|o.heap.made| - 1].args[k])
  {
    ResolveTransient(chain, from, t, heap, stack, i, c);
  }

  /** Once a singleton's factory has produced a value, every resolve reaching
      a binding to that cell returns that value and builds nothing, whichever
      contract, node and stack it comes from. */
  lemma SingletonSharesValue(chain: seq<Node>, from1: nat, t1: TypeId, heap: Heap, s1: seq<TypeId>,
                             from2: nat, t2: TypeId, s2: seq<TypeId>, i1: nat, i2: nat, cid: nat)
    requires from1 < |chain| && from2 < |chain| && Valid(chain, heap.cells)
    requires t1 !in s1 && Lookup(chain, from1, t1) == Some(Found(i1, Singleton(cid)))
    requires t2 !in s2 && Lookup(chain, from2, t2) == Some(Found(i2, Singleton(cid)))
    ensures var o1 := Resolve(chain, from1, t1, heap, s1);
            o1.res.Ok? ==> Resolve(chain, from2, t2, o1.heap, s2) == Outcome(o1.res, o1.heap, s2)
  {
    var o1 := Resolve(chain, from1, t1, heap, s1);
    ResolveSingleton(chain, from1, t1, heap, s1, i1, cid);
    if o1.res.Ok? {
      ResolveSingleton(chain, from2, t2, o1.heap, s2, i2, cid);
    }
  }

  /** A singleton whose factory failed reports the same failure on every
      later resolve, and does not run its factory again. */
  lemma SingletonKeepsFailure(chain: seq<Node>, from: nat, t: TypeId, heap: Heap, stack: seq<TypeId>, i: nat, cid: nat)
    requires from < |chain| && Valid(chain, heap.cells)
    requires t !in stack && Lookup(chain, from, t) == Some(Found(i, Singleton(cid)))
    ensures var o1 := Resolve(chain, from, t, heap, stack);
            o1.res.Err? ==> Resolve(chain, from, t, o1.heap, stack) == o1
  {
    var o1 := Resolve(chain, from, t, heap, stack);
    ResolveSingleton(chain, from, t, heap, stack, i, cid);
    if o1.res.Err? {
      ResolveSingleton(chain, from, t, o1.heap, stack, i, cid);
    }
  }

  /** An instance binding returns exactly the supplied object and changes nothing. */
  lemma InstanceReturnsSupplied(chain: seq<Node>, from: nat, t: TypeId, heap: Heap, stack: seq<TypeId>, i: nat, v: Obj)
    requires from < |chain| && Valid(chain, heap.cells)
    requires t !in stack && Lookup(chain, from, t) == Some(Found(i, Instance(v)))
    ensures Resolve(chain, from, t, heap, stack) == Outcome(Ok(v), heap, stack)
  {
  }

  /** AsNonLazy builds the singleton now; every later resolve of a contract
      bound to it returns exactly the object it built. */
  lemma NonLazyFixesValue(k: Container, cid: nat, s: seq<TypeId>, from: nat, t: TypeId, s2: seq<TypeId>, i: nat)
    requires cid < |k.heap.cells| && Valid(k.chain, k.heap.cells) && from < |k.chain|
    requires t !in s2 && Lookup(k.chain, from, t) == Some(Found(i, Singleton(cid)))
    ensures var o := AsNonLazy(k, NonLazy(cid), s);
            o.res.Ok? ==> Resolve(k.chain, from, t, o.heap, s2) == Outcome(o.res, o.heap, s2)
  {
    var o := AsNonLazy(k, NonLazy(cid), s);
    if o.res.Ok? {
      ResolveSingleton(k.chain, from, t, o.heap, s2, i, cid);
    }
  }

  // ---------------------------------------------------------------------------
  // Cycle reports

  /** A resolve begun on an empty stack that reports a cycle reports a chain
      that starts with the requested type, ends with a type met earlier in
      it, repeats nothing else, and so is at most two longer than the number
      of parameter types the chain's plans mention: the stack never holds a
      type twice, which bounds the depth of resolution. */
  lemma CycleReportBounded(chain: seq<Node>, from: nat, t: TypeId, heap: Heap)
    requires from < |chain| && Valid(chain, heap.cells) && NoFaults(heap)
    ensures var o := Resolve(chain, from, t, heap, []);
            o.res.Err? && o.res.error.CircularDependency? ==>
              var c := o.res.error.chain;
              && 2 <= |c|
              && c[0] == t
              && c[|c| - 1] in c[..|c| - 1]
              && NoDup(c[..|c| - 1])
              && |c| <= |AllParams(chain)| + 2
  {
    var o := Resolve(chain, from, t, heap, []);
    if o.res.Err? && o.res.error.CircularDependency? {
      assert NoDup<TypeId>([]);
      assert CycleReport([], 1, AllParams(chain), o.res.error);
      RepeatingChainBounded(o.res.error.chain, AllParams(chain));
    }
  }

  /** A chain whose last entry repeats an earlier one, with no other repeat and
      only parameter types after its first entry, is at most two longer than
      the set of parameter types. */
  lemma RepeatingChainBounded(c: seq<TypeId>, params: set<TypeId>)
    requires 0 < |c| && c[|c| - 1] in c[..|c| - 1] && NoDup(c[..|c| - 1])
    requires forall k :: 1 <= k < |c| ==> c[k] in params
    ensures 2 <= |c| <= |params| + 2
  {
    var middle := c[1..|c| - 1];
    assert NoDup(middle) by {
      assert middle == c[..|c| - 1][1..];
    }
    assert forall x :: x in middle ==> x in params by {
      forall x | x in middle
        ensures x in params
      {
        var k :| 0 <= k < |middle| && middle[k] == x;
        assert c[k + 1] == x;
      }
    }
    NoDupBoundedBySet(middle, params);
  }

  // ---------------------------------------------------------------------------
  // Plans and construction

  /** A container reached by binds from empty ones satisfies the invariant Resolve needs. */
  lemma EmptyChainValid(n: nat, refl: Reflection)
    ensures Valid(EmptyChain(n).chain, EmptyChain(n).heap.cells)
    ensures PlansFaithful(refl, EmptyChain(n).chain)
  {
  }

  /** An object built through a plan the planner computed (as every bind
      keeps: PlansFaithful) is built with the constructor the planner chooses
      for its type, given one argument per parameter. */
  lemma ConstructionUsesBestConstructor(refl: Reflection, chain: seq<Node>, i: nat, c: TypeId, heap: Heap, stack: seq<TypeId>)
    requires i < |chain| && c in chain[i].plans && Valid(chain, heap.cells)
    requires PlanMatches(refl, c, chain[i].plans[c])
    ensures var o := CreateInstance(chain, i, c, heap, stack);
            o.res.Ok? ==>
              var m := o.heap.made[o.res.value.id];
              && m.concrete == c
              && IsBest(refl.ConstructorsOf(c), m.ctor)
              && |m.args| == |refl.ConstructorsOf(c)[m.ctor].params|
  {
    var o := CreateInstance(chain, i, c, heap, stack);
    if o.res.Ok? {
      var p := chain[i].plans[c];
      var m := o.heap.made[o.res.value.id];
      assert m.ctor == p.ctor && |m.args| == |p.params|;
      assert IsBest(refl.ConstructorsOf(c), p.ctor);
    }
  }
}

=== FILE: registry.dfy ===
/** The binding registry: containers, their bindings and constructor plans, the
    lazy singleton cells, and the bind operations with their three
    re-registration policies. */
module BindingRegistry {
  import opened DITypes
  import opened ConstructorPlanner

  /** What a bind does when the contract is already bound in this container. */
  datatype BindPolicy = ErrorIfExists | SkipIfExists | Overwrite

  /** A binding's zero-argument factory, represented by the data its closure captures. */
  datatype Binding =
    | Transient(concrete: TypeId)  // builds a new `concrete` on every call
    | Singleton(cell: nat)         // reads the value of the lazy cell `cell`
    | Instance(obj: Obj)           // returns the object supplied at bind time

  /** A cached construction plan: the chosen constructor (its position among
      the type's public constructors) and its parameter types in order. */
  datatype Plan = Plan(ctor: nat, params: seq<TypeId>)

  /** One container: its bindings and its constructor/parameter caches. */
  datatype Node = Node(bindings: map<TypeId, Binding>, plans: map<TypeId, Plan>)

  /** The state of a lazy singleton: never read, its factory running, built,
      or failed (a failure is kept and reported again on every later read). */
  datatype LazyState = Unforced | Forcing | Forced(value: Obj) | Faulted(error: Error)

  /** A lazy singleton created by a bind on container `owner`; its factory
      builds `concrete` through that container. */
  datatype Cell = Cell(owner: nat, concrete: TypeId, state: LazyState)

  /** One constructor invocation: the type built, the constructor used, the arguments passed. */
  datatype Made = Made(concrete: TypeId, ctor: nat, args: seq<Obj>)

  /** Mutable state shared by all containers: the lazy cells and the log of
      built objects (`Built(id)` is the object logged at position `id`). */
  datatype Heap = Heap(cells: seq<Cell>, made: seq<Made>)

  /** A fallback chain of containers, the receiver first, together with the heap. */
  datatype Container = Container(chain: seq<Node>, heap: Heap)

  /** The handle a singleton bind returns, to force the singleton early. */
  datatype Handle = NonLazy(cell: nat)

  /** The outcome of a bind: the handle or the error, and the state afterwards
      (the state is kept on error too, since a failing bind may have written). */
  datatype BindResult = BindResult(res: Result<Option<Handle>>, after: Container)

  /** A chain of `n` empty containers, each falling back to the next. */
  function EmptyChain(n: nat): (k: Container)
    ensures |k.chain| == n && k.heap == Heap([], [])
    ensures forall i :: 0 <= i < n ==> k.chain[i] == Node(map[], map[])
  {
    Container(seq(n, _ => Node(map[], map[])), Heap([], []))
  }

  /** A binding stored in container `i` can be run: a transient's type has a
      cached plan in that container, a singleton's cell exists. */
  ghost predicate BindingValid(chain: seq<Node>, cells: seq<Cell>, i: nat, b: Binding)
    requires i < |chain|
  {
    match b
    case Transient(c) => c in chain[i].plans
    case Singleton(cid) => cid < |cells|
    case Instance(_) => true
  }

  /** The representation invariant every bind establishes: every binding can
      be run, and every cell's owner exists and has a plan for its type. */
  ghost predicate Valid(chain: seq<Node>, cells: seq<Cell>)
  {
    && (forall i, t :: 0 <= i < |chain| && t in chain[i].bindings ==> BindingValid(chain, cells, i, chain[i].bindings[t]))
    && (forall cid :: 0 <= cid < |cells| ==> cells[cid].owner < |chain| && cells[cid].concrete in chain[cells[cid].owner].plans)
  }

  /** A cached plan is exactly what the planner computes for its type. */
  ghost predicate PlanMatches(refl: Reflection, c: TypeId, p: Plan)
  {
    && FindBestConstructor(refl, c) == Ok(p.ctor)
    && p.ctor < |refl.ConstructorsOf(c)|
    && p.params == refl.ConstructorsOf(c)[p.ctor].params
  }

  /** Every plan cached in every container agrees with the planner. */
  ghost predicate PlansFaithful(refl: Reflection, chain: seq<Node>)
  {
    forall i, c :: 0 <= i < |chain| && c in chain[i].plans ==> PlanMatches(refl, c, chain[i].plans[c])
  }

  /** HandleExistingBinding: Ok(true) means "write the binding", Ok(false) "skip it". */
  function HandleExistingBinding(node: Node, t: TypeId, policy: BindPolicy): (r: Result<bool>)
    ensures r == Ok(true) <==> t !in node.bindings || policy == Overwrite
    ensures r == Ok(false) <==> t in node.bindings && policy == SkipIfExists
    ensures r.Err? <==> t in node.bindings && policy == ErrorIfExists
    ensures r.Err? ==> r.error == DuplicateBinding(t)
  {
    if t !in node.bindings then Ok(true)
    else
      match policy
      case ErrorIfExists => Err(DuplicateBinding(t))
      case SkipIfExists => Ok(false)
      case Overwrite => Ok(true)
  }

  /** CacheConstructorAndParams: plan `c` once per container; a cached plan is
      never recomputed, and a failed planning writes nothing. */
  function CacheConstructorAndParams(refl: Reflection, node: Node, c: TypeId): (r: Result<Node>)
    ensures r.Err? <==> c !in node.plans && forall j :: 0 <= j < |refl.ConstructorsOf(c)| ==> refl.ConstructorsOf(c)[j].obsolete
    ensures r.Err? ==> r.error == NoUsableConstructor(c)
    ensures r.Ok? ==> r.value.bindings == node.bindings && c in r.value.plans
    ensures r.Ok? && c in node.plans ==> r.value == node
    ensures r.Ok? && c !in node.plans ==>
      && r.value.plans.Keys == node.plans.Keys + {c}
      && (forall x :: x in node.plans ==> r.value.plans[x] == node.plans[x])
      && PlanMatches(refl, c, r.value.plans[c])
      && IsBest(refl.ConstructorsOf(c), r.value.plans[c].ctor)
  {
    if c in node.plans then Ok(node)
    else
      match FindBestConstructor(refl, c)
      case Err(e) => Err(e)
      case Ok(k) =>
        var plan := Plan(k, GetConstructorParams(refl.ConstructorsOf(c)[k]));
        assert PlanMatches(refl, c, plan);
        var node' := node.(plans := node.plans[c := plan]);
        assert node'.plans.Keys == node.plans.Keys + {c};
        Ok(node')
  }

  /** BindType: bind `iface` to building `concrete`, transient or as a lazy
      singleton. The policy is applied before the concrete type is planned. */
  function BindType(refl: Reflection, k: Container, i: nat, iface: TypeId, concrete: TypeId,
                    policy: BindPolicy, singleton: bool): (r: BindResult)
    requires i < |k.chain|
    // an already-bound contract: ErrorIfExists throws, SkipIfExists returns no handle; neither writes
    ensures iface in k.chain[i].bindings && policy == ErrorIfExists ==> r == BindResult(Err(DuplicateBinding(iface)), k)
    ensures iface in k.chain[i].bindings && policy == SkipIfExists ==> r == BindResult(Ok(None), k)
    // a type with no usable constructor makes the bind throw without writing
    ensures (iface !in k.chain[i].bindings || policy == Overwrite) && !Plannable(refl, k.chain[i], concrete)
            ==> r == BindResult(Err(NoUsableConstructor(concrete)), k)
    // otherwise the binding is written, replacing any earlier one, and nothing else changes
    ensures (iface !in k.chain[i].bindings || policy == Overwrite) && Plannable(refl, k.chain[i], concrete) ==>
      WrittenAs(refl, k, i, iface, concrete, singleton, r)
    ensures r.res.Err? ==> r.after == k
    ensures Valid(k.chain, k.heap.cells) ==> Valid(r.after.chain, r.after.heap.cells)
    ensures PlansFaithful(refl, k.chain) ==> PlansFaithful(refl, r.after.chain)
  {
    var node := k.chain[i];
    match HandleExistingBinding(node, iface, policy)
    case Err(e) => BindResult(Err(e), k)
    case Ok(write) =>
      if !write then BindResult(Ok(None), k)
      else PlanAndWrite(refl, k, i, iface, concrete, singleton)
  }

  /** The state after a successful BindType in container `i`: `concrete` is
      planned there, `iface` maps to the new factory, and nothing else changed. */
  ghost predicate WrittenAs(refl: Reflection, k: Container, i: nat, iface: TypeId, concrete: TypeId,
                            singleton: bool, r: BindResult)
    requires i < |k.chain|
  {
    && |r.after.chain| == |k.chain|
    && r.after.chain == k.chain[i := r.after.chain[i]]
    && concrete in r.after.chain[i].plans
    && r.after.chain[i].plans.Keys <= k.chain[i].plans.Keys + {concrete}
    && (forall c :: c in k.chain[i].plans ==> c in r.after.chain[i].plans && r.after.chain[i].plans[c] == k.chain[i].plans[c])
    && r.after.heap.made == k.heap.made
    && (!singleton ==>
          && r.res == Ok(None)
          && r.after.chain[i].bindings == k.chain[i].bindings[iface := Transient(concrete)]
          && r.after.heap == k.heap)
    && (singleton ==>
          var cid := |k.heap.cells|;
          && r.res == Ok(Some(NonLazy(cid)))
          && r.after.chain[i].bindings == k.chain[i].bindings[iface := Singleton(cid)]
          && r.after.heap.cells == k.heap.cells + [Cell(i, concrete, Unforced)])
  }

  /** The part of BindType after the policy said to write: plan, then store. */
  function PlanAndWrite(refl: Reflection, k: Container, i: nat, iface: TypeId, concrete: TypeId,
                        singleton: bool): (r: BindResult)
    requires i < |k.chain|
    ensures !Plannable(refl, k.chain[i], concrete) ==> r == BindResult(Err(NoUsableConstructor(concrete)), k)
    ensures Plannable(refl, k.chain[i], concrete) ==> WrittenAs(refl, k, i, iface, concrete, singleton, r)
    ensures Valid(k.chain, k.heap.cells) ==> Valid(r.after.chain, r.after.heap.cells)
    ensures PlansFaithful(refl, k.chain) ==> PlansFaithful(refl, r.after.chain)
  {
    match CacheConstructorAndParams(refl, k.chain[i], concrete)
    case Err(e) => BindResult(Err(e), k)
    case Ok(planned) =>
      if !singleton then
        var node' := planned.(bindings := planned.bindings[iface := Transient(concrete)]);
        StoreKeepsValid(k.chain, k.heap.cells, i, node', k.heap.cells);
        StoreKeepsPlansFaithful(refl, k.chain, i, node');
        BindResult(Ok(None), Container(k.chain[i := node'], k.heap))
      else
        var cid := |k.heap.cells|;
        var cells' := k.heap.cells + [Cell(i, concrete, Unforced)];
        var node' := planned.(bindings := planned.bindings[iface := Singleton(cid)]);
        StoreKeepsValid(k.chain, k.heap.cells, i, node', cells');
        StoreKeepsPlansFaithful(refl, k.chain, i, node');
        BindResult(Ok(Some(NonLazy(cid))), Container(k.chain[i := node'], k.heap.(cells := cells')))
  }

  /** BindInstance: bind `iface` to an object the caller supplies. */
  function BindInstance(k: Container, i: nat, iface: TypeId, obj: Obj, policy: BindPolicy): (r: BindResult)
    requires i < |k.chain|
    ensures iface in k.chain[i].bindings && policy == ErrorIfExists ==> r == BindResult(Err(DuplicateBinding(iface)), k)
    ensures iface in k.chain[i].bindings && policy == SkipIfExists ==> r == BindResult(Ok(None), k)
    ensures iface !in k.chain[i].bindings || policy == Overwrite ==>
      && r.res == Ok(None)
      && r.after.heap == k.heap
      && |r.after.chain| == |k.chain|
      && (forall j :: 0 <= j < |k.chain| && j != i ==> r.after.chain[j] == k.chain[j])
      && r.after.chain[i].plans == k.chain[i].plans
      && r.after.chain[i].bindings == k.chain[i].bindings[iface := Instance(obj)]
    ensures Valid(k.chain, k.heap.cells) ==> Valid(r.after.chain, r.after.heap.cells)
  {
    var node := k.chain[i];
    match HandleExistingBinding(node, iface, policy)
    case Err(e) => BindResult(Err(e), k)
    case Ok(write) =>
      if !write then BindResult(Ok(None), k)
      else
        var node' := node.(bindings := node.bindings[iface := Instance(obj)]);
        StoreKeepsValid(k.chain, k.heap.cells, i, node', k.heap.cells);
        BindResult(Ok(None), Container(k.chain[i := node'], k.heap))
  }

  // ---------------------------------------------------------------------------
  // Binding every interface of a type to one shared singleton

  /** `b` with every type of `xs` bound to `v` (later writes win, all equal). */
  function WriteAll(b: map<TypeId, Binding>, xs: seq<TypeId>, v: Binding): (r: map<TypeId, Binding>)
    ensures forall x :: x in r <==> x in b || x in xs
  {
    map x | x in b.Keys + (set y | y in xs) :: if x in xs then v else b[x]
  }

  /** `b` with every type of `xs` that `b` does not bind bound to `v`. */
  function FillMissing(b: map<TypeId, Binding>, xs: seq<TypeId>, v: Binding): (r: map<TypeId, Binding>)
    ensures forall x :: x in r <==> x in b || x in xs
  {
    map x | x in b.Keys + (set y | y in xs) :: if x in b then b[x] else v
  }

  /** The position of the first type of `xs` that is already bound in `b` or
      occurs earlier in `xs` (that is, bound by this very loop); `|xs|` if none. */
  function FirstConflict(b: map<TypeId, Binding>, xs: seq<TypeId>, j: nat): (m: nat)
    requires j <= |xs|
    ensures j <= m <= |xs|
    ensures forall n :: j <= n < m ==> xs[n] !in b && xs[n] !in xs[..n]
    ensures m < |xs| ==> xs[m] in b || xs[m] in xs[..m]
    decreases |xs| - j
  {
    if j == |xs| then j
    else if xs[j] in b || xs[j] in xs[..j] then j
    else FirstConflict(b, xs, j + 1)
  }

  /** The outcome of the foreach over the interfaces: an error, if one was
      thrown, and the bindings as they stand when the loop stops. */
  datatype LoopResult = LoopResult(err: Option<Error>, bindings: map<TypeId, Binding>)

  /** The foreach of BindInterfacesToSelfSingletonInternal, from position `j`:
      apply the policy to each interface and write `v` unless told to skip. */
  function BindEach(acc: map<TypeId, Binding>, xs: seq<TypeId>, j: nat, v: Binding, policy: BindPolicy): LoopResult
    requires j <= |xs|
    decreases |xs| - j
  {
    if j == |xs| then LoopResult(None, acc)
    else
      match HandleExistingBinding(Node(acc, map[]), xs[j], policy)
      case Err(e) => LoopResult(Some(e), acc)
      case Ok(write) =>
        if write then BindEach(acc[xs[j] := v], xs, j + 1, v, policy)
        else BindEach(acc, xs, j + 1, v, policy)
  }

  /** Under Overwrite every interface is bound to `v`. */
  lemma {:induction false} BindEachOverwrite(b: map<TypeId, Binding>, acc: map<TypeId, Binding>, xs: seq<TypeId>, j: nat, v: Binding)
    requires j <= |xs| && acc == WriteAll(b, xs[..j], v)
    ensures BindEach(acc, xs, j, v, Overwrite) == LoopResult(None, WriteAll(b, xs, v))
    decreases |xs| - j
  {
    if j == |xs| {
      assert xs[..j] == xs;
    } else {
      assert xs[..j + 1] == xs[..j] + [xs[j]];
      WriteAllSnoc(b, xs[..j], xs[j], v);
      BindEachOverwrite(b, acc[xs[j] := v], xs, j + 1, v);
    }
  }

  /** Under SkipIfExists only the interfaces not bound before are bound to `v`. */
  lemma {:induction false} BindEachSkip(b: map<TypeId, Binding>, acc: map<TypeId, Binding>, xs: seq<TypeId>, j: nat, v: Binding)
    requires j <= |xs| && acc == FillMissing(b, xs[..j], v)
    ensures BindEach(acc, xs, j, v, SkipIfExists) == LoopResult(None, FillMissing(b, xs, v))
    decreases |xs| - j
  {
    if j == |xs| {
      assert xs[..j] == xs;
    } else {
      assert xs[..j + 1] == xs[..j] + [xs[j]];
      FillMissingSnoc(b, xs[..j], xs[j], v);
      if xs[j] in acc {
        BindEachSkip(b, acc, xs, j + 1, v);
      } else {
        BindEachSkip(b, acc[xs[j] := v], xs, j + 1, v);
      }
    }
  }

  /** Under ErrorIfExists the loop binds up to the first conflict and throws
      there, leaving the interfaces before it bound. */
  lemma {:induction false} BindEachError(b: map<TypeId, Binding>, acc: map<TypeId, Binding>, xs: seq<TypeId>, j: nat, v: Binding)
    requires j <= |xs| && acc == WriteAll(b, xs[..j], v)
    requires j <= FirstConflict(b, xs, 0)
    ensures var m := FirstConflict(b, xs, 0);
            var r := BindEach(acc, xs, j, v, ErrorIfExists);
            && r.bindings == WriteAll(b, xs[..m], v)
            && (m == |xs| ==> r.err == None)
            && (m < |xs| ==> r.err == Some(DuplicateBinding(xs[m])))
    decreases |xs| - j
  {
    var m := FirstConflict(b, xs, 0);
    if j == |xs| {
      assert xs[..j] == xs[..m];
    } else if j == m {
      ErrorAtConflict(b, acc, xs, j, v);
    } else {
      ErrorBeforeConflict(b, acc, xs, j, v);
      BindEachError(b, acc[xs[j] := v], xs, j + 1, v);
    }
  }

  /** At the first conflict the ErrorIfExists loop throws, writing nothing more. */
  lemma ErrorAtConflict(b: map<TypeId, Binding>, acc: map<TypeId, Binding>, xs: seq<TypeId>, j: nat, v: Binding)
    requires j < |xs| && acc == WriteAll(b, xs[..j], v)
    requires j == FirstConflict(b, xs, 0)
    ensures BindEach(acc, xs, j, v, ErrorIfExists) == LoopResult(Some(DuplicateBinding(xs[j])), acc)
  {
    WrittenOrBound(b, xs[..j], xs[j], v);
    ErrorStops(acc, xs, j, v);
  }

  /** Before the first conflict the ErrorIfExists loop binds the interface and goes on. */
  lemma ErrorBeforeConflict(b: map<TypeId, Binding>, acc: map<TypeId, Binding>, xs: seq<TypeId>, j: nat, v: Binding)
    requires j < |xs| && acc == WriteAll(b, xs[..j], v)
    requires j < FirstConflict(b, xs, 0)
    ensures acc[xs[j] := v] == WriteAll(b, xs[..j + 1], v)
    ensures BindEach(acc, xs, j, v, ErrorIfExists) == BindEach(acc[xs[j] := v], xs, j + 1, v, ErrorIfExists)
  {
    WrittenOrBound(b, xs[..j], xs[j], v);
    ErrorContinues(acc, xs, j, v);
    assert xs[..j + 1] == xs[..j] + [xs[j]];
    WriteAllSnoc(b, xs[..j], xs[j], v);
  }

  /** One step of the ErrorIfExists loop on a bound interface: it throws. */
  lemma ErrorStops(acc: map<TypeId, Binding>, xs: seq<TypeId>, j: nat, v: Binding)
    requires j < |xs| && xs[j] in acc
    ensures BindEach(acc, xs, j, v, ErrorIfExists) == LoopResult(Some(DuplicateBinding(xs[j])), acc)
  {
  }

  /** One step of the ErrorIfExists loop on an unbound interface: it binds and goes on. */
  lemma ErrorContinues(acc: map<TypeId, Binding>, xs: seq<TypeId>, j: nat, v: Binding)
    requires j < |xs| && xs[j] !in acc
    ensures BindEach(acc, xs, j, v, ErrorIfExists) == BindEach(acc[xs[j] := v], xs, j + 1, v, ErrorIfExists)
  {
  }

  lemma WrittenOrBound(b: map<TypeId, Binding>, xs: seq<TypeId>, x: TypeId, v: Binding)
    ensures x in WriteAll(b, xs, v) <==> x in b || x in xs
  {
  }

  /** Planning `c` in `node` cannot fail: it is cached, or has a usable constructor. */
  ghost predicate Plannable(refl: Reflection, node: Node, c: TypeId)
  {
    c in node.plans || !forall j :: 0 <= j < |refl.ConstructorsOf(c)| ==> refl.ConstructorsOf(c)[j].obsolete
  }

  /** BindInterfacesToSelfSingletonInternal: plan `concrete`, make one lazy
      cell for it, and bind each of its interfaces to that cell under `policy`.
      A handle is returned whenever planning succeeds, even if nothing was bound. */
  function BindInterfacesToSelfSingleton(refl: Reflection, k: Container, i: nat, concrete: TypeId,
                                         policy: BindPolicy): (r: BindResult)
    requires i < |k.chain|
    // the constructor lookup comes first: when it fails no interface is bound
    ensures !Plannable(refl, k.chain[i], concrete) ==> r == BindResult(Err(NoUsableConstructor(concrete)), k)
    ensures Plannable(refl, k.chain[i], concrete) ==>
      var cid := |k.heap.cells|;
      var xs := refl.InterfacesOf(concrete);
      var b := k.chain[i].bindings;
      var m := FirstConflict(b, xs, 0);
      && |r.after.chain| == |k.chain|
      && (forall j :: 0 <= j < |k.chain| && j != i ==> r.after.chain[j] == k.chain[j])
      && concrete in r.after.chain[i].plans
      // earlier plans are kept and only the plan for `concrete` may be added
      && r.after.chain[i].plans.Keys <= k.chain[i].plans.Keys + {concrete}
      && (forall c :: c in k.chain[i].plans ==> c in r.after.chain[i].plans && r.after.chain[i].plans[c] == k.chain[i].plans[c])
      && r.after.heap == Heap(k.heap.cells + [Cell(i, concrete, Unforced)], k.heap.made)
      // every interface shares the one new cell, replacing what was there
      && (policy == Overwrite ==>
            r.res == Ok(Some(NonLazy(cid))) && r.after.chain[i].bindings == WriteAll(b, xs, Singleton(cid)))
      // only the interfaces not bound before are bound
      && (policy == SkipIfExists ==>
            r.res == Ok(Some(NonLazy(cid))) && r.after.chain[i].bindings == FillMissing(b, xs, Singleton(cid)))
      // the first conflict throws; the interfaces before it stay bound
      && (policy == ErrorIfExists ==>
            && r.after.chain[i].bindings == WriteAll(b, xs[..m], Singleton(cid))
            && (m == |xs| ==> r.res == Ok(Some(NonLazy(cid))))
            && (m < |xs| ==> r.res == Err(DuplicateBinding(xs[m]))))
    ensures Valid(k.chain, k.heap.cells) ==> Valid(r.after.chain, r.after.heap.cells)
    ensures PlansFaithful(refl, k.chain) ==> PlansFaithful(refl, r.after.chain)
  {
    var node := k.chain[i];
    match CacheConstructorAndParams(refl, node, concrete)
    case Err(e) => BindResult(Err(e), k)
    case Ok(planned) =>
      var cid := |k.heap.cells|;
      var cells' := k.heap.cells + [Cell(i, concrete, Unforced)];
      var xs := refl.InterfacesOf(concrete);
      var loop := BindEach(planned.bindings, xs, 0, Singleton(cid), policy);
      var node' := planned.(bindings := loop.bindings);
      BindEachSpec(planned.bindings, xs, Singleton(cid), policy);
      BindEachWritesOnly(planned.bindings, xs, 0, Singleton(cid), policy);
      StoreKeepsValid(k.chain, k.heap.cells, i, node', cells');
      StoreKeepsPlansFaithful(refl, k.chain, i, node');
      var after := Container(k.chain[i := node'], k.heap.(cells := cells'));
      match loop.err
      case Some(e) => BindResult(Err(e), after)
      case None => BindResult(Ok(Some(NonLazy(cid))), after)
  }

  /** The whole interface loop, one policy at a time. */
  lemma BindEachSpec(b: map<TypeId, Binding>, xs: seq<TypeId>, v: Binding, policy: BindPolicy)
    ensures policy == Overwrite ==> BindEach(b, xs, 0, v, policy) == LoopResult(None, WriteAll(b, xs, v))
    ensures policy == SkipIfExists ==> BindEach(b, xs, 0, v, policy) == LoopResult(None, FillMissing(b, xs, v))
    ensures policy == ErrorIfExists ==>
      var m := FirstConflict(b, xs, 0);
      var r := BindEach(b, xs, 0, v, policy);
      && r.bindings == WriteAll(b, xs[..m], v)
      && (m == |xs| ==> r.err == None)
      && (m < |xs| ==> r.err == Some(DuplicateBinding(xs[m])))
  {
    assert xs[..0] == [];
    assert WriteAll(b, [], v) == b;
    assert FillMissing(b, [], v) == b;
    match policy
    case Overwrite => BindEachOverwrite(b, b, xs, 0, v);
    case SkipIfExists => BindEachSkip(b, b, xs, 0, v);
    case ErrorIfExists => BindEachError(b, b, xs, 0, v);
  }

  // ---------------------------------------------------------------------------
  // Invariant preservation

  /** Storing a node that keeps the old plans, and whose bindings are the old
      ones or runnable ones, keeps Valid. */
  lemma StoreKeepsValid(chain: seq<Node>, cells: seq<Cell>, i: nat, node': Node, cells': seq<Cell>)
    requires i < |chain|
    requires cells <= cells'
    requires chain[i].plans.Keys <= node'.plans.Keys
    requires forall cid :: |cells| <= cid < |cells'| ==> cells'[cid].owner == i && cells'[cid].concrete in node'.plans
    requires forall t :: t in node'.bindings ==>
               (t in chain[i].bindings && node'.bindings[t] == chain[i].bindings[t])
               || BindingValid(chain[i := node'], cells', i, node'.bindings[t])
    ensures Valid(chain, cells) ==> Valid(chain[i := node'], cells')
  {
    if Valid(chain, cells) {
      var chain' := chain[i := node'];
      forall j, t | 0 <= j < |chain'| && t in chain'[j].bindings
        ensures BindingValid(chain', cells', j, chain'[j].bindings[t])
      {
        if j != i {
          assert BindingValid(chain, cells, j, chain[j].bindings[t]);
        } else if t in chain[i].bindings && node'.bindings[t] == chain[i].bindings[t] {
          assert BindingValid(chain, cells, i, chain[i].bindings[t]);
        }
      }
      forall cid | 0 <= cid < |cells'|
        ensures cells'[cid].owner < |chain'| && cells'[cid].concrete in chain'[cells'[cid].owner].plans
      {
        if cid < |cells| {
          assert cells'[cid] == cells[cid];
        }
      }
    }
  }

  /** Storing a node whose plans extend the old ones faithfully keeps PlansFaithful. */
  lemma StoreKeepsPlansFaithful(refl: Reflection, chain: seq<Node>, i: nat, node': Node)
    requires i < |chain|
    requires forall c :: c in node'.plans && c !in chain[i].plans ==> PlanMatches(refl, c, node'.plans[c])
    requires forall c :: c in node'.plans && c in chain[i].plans ==> node'.plans[c] == chain[i].plans[c]
    ensures PlansFaithful(refl, chain) ==> PlansFaithful(refl, chain[i := node'])
  {
  }

  /** Every binding the interface loop leaves is an earlier one or `v`. */
  lemma {:induction false} BindEachWritesOnly(acc: map<TypeId, Binding>, xs: seq<TypeId>, j: nat, v: Binding, policy: BindPolicy)
    requires j <= |xs|
    ensures var r := BindEach(acc, xs, j, v, policy);
            forall t :: t in r.bindings ==> (t in acc && r.bindings[t] == acc[t]) || r.bindings[t] == v
    decreases |xs| - j
  {
    if j < |xs| {
      match HandleExistingBinding(Node(acc, map[]), xs[j], policy)
      case Err(e) =>
      case Ok(write) =>
        if write {
          BindEachWritesOnly(acc[xs[j] := v], xs, j + 1, v, policy);
        } else {
          BindEachWritesOnly(acc, xs, j + 1, v, policy);
        }
    }
  }

  lemma WriteAllSnoc(b: map<TypeId, Binding>, xs: seq<TypeId>, x: TypeId, v: Binding)
    ensures WriteAll(b, xs + [x], v) == WriteAll(b, xs, v)[x := v]
  {
    var l := WriteAll(b, xs + [x], v);
    var r := WriteAll(b, xs, v)[x := v];
    assert l.Keys == r.Keys;
    forall y | y in l ensures l[y] == r[y] {
      if y != x {
        assert y in xs + [x] <==> y in xs;
      }
    }
  }

  lemma FillMissingSnoc(b: map<TypeId, Binding>, xs: seq<TypeId>, x: TypeId, v: Binding)
    ensures x in FillMissing(b, xs, v) ==> FillMissing(b, xs + [x], v) == FillMissing(b, xs, v)
    ensures x !in FillMissing(b, xs, v) ==> FillMissing(b, xs + [x], v) == FillMissing(b, xs, v)[x := v]
  {
    var l := FillMissing(b, xs + [x], v);
    var f := FillMissing(b, xs, v);
    if x in f {
      assert l.Keys == f.Keys;
    } else {
      assert l.Keys == f[x := v].Keys;
    }
  }
}

=== FILE: resolver.dfy ===
/** The resolver: the walk along the fallback chain, the cycle check on the
    per-thread resolution stack, the lifetimes of the three kinds of binding,
    and construction through the cached plans. The stack and the heap are
    threaded through every call; the chain's bindings and plans do not change
    while resolving. */
module Resolver {
  import opened DITypes
  import opened BindingRegistry

  /** The node of the chain that holds the binding, and the binding. */
  datatype Found = Found(index: nat, binding: Binding)

  /** What a resolution step returns: a value or the exception raised, and the
      heap and resolution stack afterwards. */
  datatype Outcome<+T> = Outcome(res: Result<T>, heap: Heap, stack: seq<TypeId>)

  /** The lookup loop of Resolve: the first node at or after `from` that binds `t`. */
  function Lookup(chain: seq<Node>, from: nat, t: TypeId): (r: Option<Found>)
    requires from <= |chain|
    ensures r.Some? ==>
      && from <= r.value.index < |chain|
      && t in chain[r.value.index].bindings
      && r.value.binding == chain[r.value.index].bindings[t]
      && forall j :: from <= j < r.value.index ==> t !in chain[j].bindings
    ensures r.None? <==> forall j :: from <= j < |chain| ==> t !in chain[j].bindings
    decreases |chain| - from
  {
    if from == |chain| then None
    else if t in chain[from].bindings then Some(Found(from, chain[from].bindings[t]))
    else Lookup(chain, from + 1, t)
  }

  /** Every type some cached plan of the chain asks for as a constructor parameter. */
  ghost function AllParams(chain: seq<Node>): set<TypeId>
  {
    set i, c, k | 0 <= i < |chain| && c in chain[i].plans && 0 <= k < |chain[i].plans[c].params|
      :: chain[i].plans[c].params[k]
  }

  lemma ParamIsKnown(chain: seq<Node>, i: nat, c: TypeId)
    requires i < |chain| && c in chain[i].plans
    ensures forall p :: p in chain[i].plans[c].params ==> p in AllParams(chain)
  {
    forall p | p in chain[i].plans[c].params
      ensures p in AllParams(chain)
    {
      var k :| 0 <= k < |chain[i].plans[c].params| && chain[i].plans[c].params[k] == p;
    }
  }

  /** The termination measure: parameter types not yet on the stack. */
  ghost function Unvisited(chain: seq<Node>, stack: seq<TypeId>): nat
  {
    |AllParams(chain) - (set x | x in stack)|
  }

  /** Pushing a type that is not on the stack shrinks the measure, or keeps it
      when the type is not a parameter type. */
  lemma PushShrinks(chain: seq<Node>, stack: seq<TypeId>, t: TypeId)
    requires t !in stack
    ensures Unvisited(chain, stack + [t]) + (if t in AllParams(chain) then 1 else 0) == Unvisited(chain, stack)
  {
    var before := AllParams(chain) - (set x | x in stack);
    var after := AllParams(chain) - (set x | x in stack + [t]);
    if t in AllParams(chain) {
      assert after == before - {t};
    } else {
      assert after == before;
    }
  }

  // ---------------------------------------------------------------------------
  // Heap evolution

  /** The transitions a lazy cell can make: a cell never goes back to
      unforced, a running factory ends only in failure for re-entrant reads,
      a built value never changes, a failure stays a failure. */
  ghost predicate StateStep(s: LazyState, s': LazyState)
  {
    match s
    case Unforced => true
    case Forcing => s'.Forcing? || s'.Faulted?
    case Forced(_) => s' == s
    case Faulted(_) => s'.Faulted?
  }

  /** `h'` can follow `h`: the same cells with allowed transitions, and the
      construction log only extended. */
  ghost predicate Evolves(h: Heap, h': Heap)
  {
    && |h'.cells| == |h.cells|
    && (forall cid :: 0 <= cid < |h.cells| ==>
          && h'.cells[cid].owner == h.cells[cid].owner
          && h'.cells[cid].concrete == h.cells[cid].concrete
          && StateStep(h.cells[cid].state, h'.cells[cid].state))
    && h.made <= h'.made
  }

  lemma EvolvesKeepsValid(chain: seq<Node>, h: Heap, h': Heap)
    requires Valid(chain, h.cells) && Evolves(h, h')
    ensures Valid(chain, h'.cells)
  {
    forall i, t | 0 <= i < |chain| && t in chain[i].bindings
      ensures BindingValid(chain, h'.cells, i, chain[i].bindings[t])
    {
      assert BindingValid(chain, h.cells, i, chain[i].bindings[t]);
    }
  }

  lemma EvolvesTrans(h1: Heap, h2: Heap, h3: Heap)
    requires Evolves(h1, h2) && Evolves(h2, h3)
    ensures Evolves(h1, h3)
  {
    forall cid | 0 <= cid < |h1.cells|
      ensures StateStep(h1.cells[cid].state, h3.cells[cid].state)
    {
      assert StateStep(h1.cells[cid].state, h2.cells[cid].state);
      assert StateStep(h2.cells[cid].state, h3.cells[cid].state);
    }
  }

  /** No cell holds a kept failure. */
  ghost predicate NoFaults(h: Heap)
  {
    forall cid :: 0 <= cid < |h.cells| ==> !h.cells[cid].state.Faulted?
  }

  /** `v` is a value binding `b` can have produced by heap `h`: the supplied
      object, the value the singleton's cell holds, or an object logged as
      built from the transient's concrete type. */
  ghost predicate Yields(b: Binding, h: Heap, v: Obj)
  {
    match b
    case Instance(w) => v == w
    case Singleton(cid) => cid < |h.cells| && h.cells[cid].state == Forced(v)
    case Transient(c) => v.Built? && v.id < |h.made| && h.made[v.id].concrete == c
  }

  /** `v` is what resolving `t` from node `from` delivers by heap `h`: the
      first binding of `t` along the chain yields it. */
  ghost predicate Delivers(chain: seq<Node>, from: nat, t: TypeId, h: Heap, v: Obj)
    requires from <= |chain|
  {
    var f := Lookup(chain, from, t);
    f.Some? && Yields(f.value.binding, h, v)
  }

  /** What a binding yielded stays yielded as the heap evolves. */
  lemma YieldsStable(b: Binding, h: Heap, h': Heap, v: Obj)
    requires Yields(b, h, v) && Evolves(h, h')
    ensures Yields(b, h', v)
  {
    match b
    case Instance(_) =>
    case Singleton(cid) => assert StateStep(h.cells[cid].state, h'.cells[cid].state);
    case Transient(c) => assert h'.made[v.id] == h.made[v.id];
  }

  lemma DeliversAllStable(chain: seq<Node>, i: nat, ps: seq<TypeId>, vs: seq<Obj>, h: Heap, h': Heap)
    requires i <= |chain| && |vs| == |ps| && Evolves(h, h')
    requires forall k :: 0 <= k < |ps| ==> Delivers(chain, i, ps[k], h, vs[k])
    ensures forall k :: 0 <= k < |ps| ==> Delivers(chain, i, ps[k], h', vs[k])
  {
    forall k | 0 <= k < |ps|
      ensures Delivers(chain, i, ps[k], h', vs[k])
    {
      YieldsStable(Lookup(chain, i, ps[k]).value.binding, h, h', vs[k]);
    }
  }

  function SetState(h: Heap, cid: nat, s: LazyState): (h': Heap)
    requires cid < |h.cells|
    ensures |h'.cells| == |h.cells| && h'.made == h.made && h'.cells[cid].state == s
    ensures h'.cells[cid].owner == h.cells[cid].owner && h'.cells[cid].concrete == h.cells[cid].concrete
    ensures forall j :: 0 <= j < |h.cells| && j != cid ==> h'.cells[j] == h.cells[j]
  {
    h.(cells := h.cells[cid := h.cells[cid].(state := s)])
  }

  function Pop(stack: seq<TypeId>): seq<TypeId>
    requires |stack| > 0
  {
    stack[..|stack| - 1]
  }

  /** BuildCircularDependencyException's chain: the stack from the outermost
      request up, then the repeated type. */
  function CircularChain(stack: seq<TypeId>, repeating: TypeId): seq<TypeId>
  {
    stack + [repeating]
  }

  /** What a cycle report raised below the stack `base` looks like: it starts
      with `base`, ends with a type that occurs earlier in it, is otherwise
      duplicate-free when `base` is, and from position `lo` on holds only
      constructor parameter types. */
  ghost predicate CycleReport(base: seq<TypeId>, lo: nat, params: set<TypeId>, e: Error)
  {
    e.CircularDependency? ==>
      var c := e.chain;
      && |base| < |c|
      && c[..|base|] == base
      && c[|c| - 1] in c[..|c| - 1]
      && (NoDup(base) ==> NoDup(c[..|c| - 1]))
      && forall k :: lo <= k < |c| ==> c[k] in params
  }

  /** The report raised at a repeated request. */
  lemma RepeatReport(stack: seq<TypeId>, t: TypeId, params: set<TypeId>)
    requires t in stack
    ensures CycleReport(stack, |stack| + 1, params, CircularDependency(CircularChain(stack, t)))
  {
    var c := CircularChain(stack, t);
    assert c[..|c| - 1] == stack;
  }

  /** A report raised above `stack + [t]` is one raised above `stack` whose
      entry at the height of `stack` is `t`. */
  lemma ReportBelowPush(stack: seq<TypeId>, t: TypeId, params: set<TypeId>, e: Error)
    requires t !in stack
    ensures CycleReport(stack + [t], |stack| + 1, params, e) ==>
      && CycleReport(stack, |stack| + 1, params, e)
      && (e.CircularDependency? ==> |stack| < |e.chain| && e.chain[|stack|] == t)
  {
    if e.CircularDependency? && CycleReport(stack + [t], |stack| + 1, params, e) {
      var c := e.chain;
      assert c[..|stack| + 1] == stack + [t];
      assert c[..|stack|] == (stack + [t])[..|stack|] == stack;
      if NoDup(stack) {
        assert NoDup(stack + [t]);
      }
    }
  }

  /** A report whose entry at the height of the stack is a parameter type
      holds only parameter types from that height on. */
  lemma ReportWidens(base: seq<TypeId>, params: set<TypeId>, e: Error)
    ensures CycleReport(base, |base| + 1, params, e)
            && (e.CircularDependency? ==> |base| < |e.chain| && e.chain[|base|] in params)
            ==> CycleReport(base, |base|, params, e)
  {
  }

  // ---------------------------------------------------------------------------
  // Resolution

  /** IDIResolver.Resolve(type) on the container at position `from` of the chain. */
  function Resolve(chain: seq<Node>, from: nat, t: TypeId, heap: Heap, stack: seq<TypeId>): (o: Outcome<Obj>)
    requires from < |chain| && Valid(chain, heap.cells)
    // the stack is the same after the call, whether it returned or threw
    ensures o.stack == stack
    ensures Evolves(heap, o.heap) && Valid(chain, o.heap.cells)
    // a repeated request throws before any factory runs
    ensures t in stack ==> o == Outcome(Err(CircularDependency(stack + [t])), heap, stack)
    // no node of the chain binds `t`
    ensures t !in stack && Lookup(chain, from, t).None? ==> o == Outcome(Err(MissingBinding(t)), heap, stack)
    // a value returned is the one the first binding of `t` produces
    ensures o.res.Ok? ==> Delivers(chain, from, t, o.heap, o.res.value)
    // a transient binding returns an object built during this call
    ensures o.res.Ok? && Lookup(chain, from, t).Some? && Lookup(chain, from, t).value.binding.Transient? ==>
      o.res.value.Built? && |heap.made| <= o.res.value.id
    ensures NoFaults(heap) && o.res.Ok? ==> NoFaults(o.heap)
    ensures NoFaults(heap) && o.res.Err? ==>
      && CycleReport(stack, |stack| + 1, AllParams(chain), o.res.error)
      && (o.res.error.CircularDependency? ==> o.res.error.chain[|stack|] == t)
    decreases Unvisited(chain, stack) + (if t in AllParams(chain) then 0 else 1), 0, 0
  {
    if t in stack then
      RepeatReport(stack, t, AllParams(chain));
      Outcome(Err(CircularDependency(CircularChain(stack, t))), heap, stack)
    else
      var pushed := stack + [t];
      PushShrinks(chain, stack, t);
      match Lookup(chain, from, t)
      case None =>
        Outcome(Err(MissingBinding(t)), heap, Pop(pushed))
      case Some(f) =>
        assert BindingValid(chain, heap.cells, f.index, f.binding);
        var o := Invoke(chain, f, heap, pushed);
        EvolvesKeepsValid(chain, heap, o.heap);
        if o.res.Err? then
          ReportBelowPush(stack, t, AllParams(chain), o.res.error);
          Outcome(o.res, o.heap, Pop(o.stack))
        else
          Outcome(o.res, o.heap, Pop(o.stack))
  }

  /** Calling the factory of a binding found at node `f.index`. */
  function Invoke(chain: seq<Node>, f: Found, heap: Heap, stack: seq<TypeId>): (o: Outcome<Obj>)
    requires f.index < |chain| && Valid(chain, heap.cells)
    requires BindingValid(chain, heap.cells, f.index, f.binding)
    ensures o.stack == stack
    ensures Evolves(heap, o.heap)
    // an instance binding returns the supplied object and changes nothing
    ensures f.binding.Instance? ==> o == Outcome(Ok(f.binding.obj), heap, stack)
    ensures o.res.Ok? ==> Yields(f.binding, o.heap, o.res.value)
    ensures o.res.Ok? && f.binding.Transient? ==> o.res.value.Built? && |heap.made| <= o.res.value.id
    ensures NoFaults(heap) && o.res.Ok? ==> NoFaults(o.heap)
    ensures NoFaults(heap) && o.res.Err? ==> CycleReport(stack, |stack|, AllParams(chain), o.res.error)
    decreases Unvisited(chain, stack), 4, 0
  {
    match f.binding
    case Instance(v) => Outcome(Ok(v), heap, stack)
    case Transient(c) => CreateInstance(chain, f.index, c, heap, stack)
    case Singleton(cid) => Force(chain, cid, heap, stack)
  }

  /** Lazy<object>.Value of cell `cid`: the first read runs the factory (the
      owner's CreateInstance) and keeps its value or its exception; a read
      while the factory runs fails and poisons the cell. */
  function Force(chain: seq<Node>, cid: nat, heap: Heap, stack: seq<TypeId>): (o: Outcome<Obj>)
    requires cid < |heap.cells| && Valid(chain, heap.cells)
    ensures o.stack == stack
    ensures Evolves(heap, o.heap)
    ensures heap.cells[cid].state.Forced? ==> o == Outcome(Ok(heap.cells[cid].state.value), heap, stack)
    ensures heap.cells[cid].state.Faulted? ==> o == Outcome(Err(heap.cells[cid].state.error), heap, stack)
    ensures o.res.Ok? ==> o.heap.cells[cid].state == Forced(o.res.value)
    ensures o.res.Err? ==> o.heap.cells[cid].state == Faulted(o.res.error)
    // the factory runs only from the unforced state: nothing is built otherwise
    ensures !heap.cells[cid].state.Unforced? ==> o.heap.made == heap.made
    // a read while the factory runs fails, and the cell keeps that failure
    ensures heap.cells[cid].state.Forcing? ==>
      o == Outcome(Err(ReentrantSingleton), SetState(heap, cid, Faulted(ReentrantSingleton)), stack)
    // the first successful read builds a new object of the cell's concrete type
    ensures heap.cells[cid].state.Unforced? && o.res.Ok? ==>
      && o.res.value.Built?
      && |heap.made| <= o.res.value.id < |o.heap.made|
      && o.heap.made[o.res.value.id].concrete == heap.cells[cid].concrete
    ensures NoFaults(heap) && o.res.Ok? ==> NoFaults(o.heap)
    ensures NoFaults(heap) && o.res.Err? ==> CycleReport(stack, |stack|, AllParams(chain), o.res.error)
    decreases Unvisited(chain, stack), 3, 0
  {
    var cell := heap.cells[cid];
    match cell.state
    case Forced(v) => Outcome(Ok(v), heap, stack)
    case Faulted(e) => Outcome(Err(e), heap, stack)
    case Forcing => Outcome(Err(ReentrantSingleton), SetState(heap, cid, Faulted(ReentrantSingleton)), stack)
    case Unforced =>
      var running := SetState(heap, cid, Forcing);
      EvolvesKeepsValid(chain, heap, running);
      var o := CreateInstance(chain, cell.owner, cell.concrete, running, stack);
      match o.res
      case Ok(v) => Outcome(Ok(v), SetState(o.heap, cid, Forced(v)), o.stack)
      case Err(e) => Outcome(Err(e), SetState(o.heap, cid, Faulted(e)), o.stack)
  }

  /** CreateInstance: resolve the cached plan's parameter types in order through
      container `i`, then invoke the constructor on a fresh object. */
  function CreateInstance(chain: seq<Node>, i: nat, c: TypeId, heap: Heap, stack: seq<TypeId>): (o: Outcome<Obj>)
    requires i < |chain| && c in chain[i].plans && Valid(chain, heap.cells)
    ensures o.stack == stack
    ensures Evolves(heap, o.heap)
    ensures o.res.Ok? ==>
      && |heap.made| < |o.heap.made|
      && o.res.value == Built(|o.heap.made| - 1)
      && o.heap.made[|o.heap.made| - 1].concrete == c
      && o.heap.made[|o.heap.made| - 1].ctor == chain[i].plans[c].ctor
      && |o.heap.made[|o.heap.made| - 1].args| == |chain[i].plans[c].params|
      // argument k is what resolving parameter type k through container `i` delivers
      && (forall k :: 0 <= k < |chain[i].plans[c].params| ==>
            Delivers(chain, i, chain[i].plans[c].params[k], o.heap, o.heap.made[|o.heap.made| - 1].args[k]))
      // every transient argument is a distinct object built during this call
      && FreshTransients(chain, i, chain[i].plans[c].params, |heap.made|, o.heap.made[|o.heap.made| - 1].args)
    ensures NoFaults(heap) && o.res.Ok? ==> NoFaults(o.heap)
    ensures NoFaults(heap) && o.res.Err? ==> CycleReport(stack, |stack|, AllParams(chain), o.res.error)
    decreases Unvisited(chain, stack), 2, 0
  {
    var plan := chain[i].plans[c];
    ParamIsKnown(chain, i, c);
    var a := ResolveArgs(chain, i, plan.params, heap, stack);
    match a.res
    case Err(e) => Outcome(Err(e), a.heap, a.stack)
    case Ok(args) =>
      var built := a.heap.(made := a.heap.made + [Made(c, plan.ctor, args)]);
      DeliversAllStable(chain, i, plan.params, args, a.heap, built);
      Outcome(Ok(Built(|a.heap.made|)), built, a.stack)
  }

  /** The argument loop of CreateInstance: resolve each parameter type, left
      to right, through container `i`; the first failure aborts the rest. */
  function ResolveArgs(chain: seq<Node>, i: nat, ps: seq<TypeId>, heap: Heap, stack: seq<TypeId>): (o: Outcome<seq<Obj>>)
    requires i < |chain| && Valid(chain, heap.cells)
    requires forall p :: p in ps ==> p in AllParams(chain)
    ensures o.stack == stack
    ensures Evolves(heap, o.heap)
    ensures o.res.Ok? ==> |o.res.value| == |ps|
    ensures o.res.Ok? ==> forall k :: 0 <= k < |ps| ==> Delivers(chain, i, ps[k], o.heap, o.res.value[k])
    ensures o.res.Ok? ==> FreshTransients(chain, i, ps, |heap.made|, o.res.value)
    ensures NoFaults(heap) && o.res.Ok? ==> NoFaults(o.heap)
    ensures NoFaults(heap) && o.res.Err? ==> CycleReport(stack, |stack|, AllParams(chain), o.res.error)
    decreases Unvisited(chain, stack), 1, |ps|
  {
    if ps == [] then Outcome(Ok([]), heap, stack)
    else
      var first := Resolve(chain, i, ps[0], heap, stack);
      match first.res
      case Err(e) =>
        ReportWidens(stack, AllParams(chain), e);
        Outcome(Err(e), first.heap, first.stack)
      case Ok(v) =>
        EvolvesKeepsValid(chain, heap, first.heap);
        var rest := ResolveArgs(chain, i, ps[1..], first.heap, first.stack);
        EvolvesTrans(heap, first.heap, rest.heap);
        match rest.res
        case Err(e) => Outcome(Err(e), rest.heap, rest.stack)
        case Ok(vs) =>
          YieldsStable(Lookup(chain, i, ps[0]).value.binding, first.heap, rest.heap, v);
          ArgsDelivered(chain, i, ps, v, vs, rest.heap);
          FreshTransientsCons(chain, i, ps, |heap.made|, |first.heap.made|, v, vs);
          Outcome(Ok([v] + vs), rest.heap, rest.stack)
  }

  lemma ArgsDelivered(chain: seq<Node>, i: nat, ps: seq<TypeId>, v: Obj, vs: seq<Obj>, h: Heap)
    requires i <= |chain| && 0 < |ps| && |vs| == |ps| - 1
    requires Delivers(chain, i, ps[0], h, v)
    requires forall k :: 0 <= k < |ps[1..]| ==> Delivers(chain, i, ps[1..][k], h, vs[k])
    ensures forall k :: 0 <= k < |ps| ==> Delivers(chain, i, ps[k], h, ([v] + vs)[k])
  {
    forall k | 0 <= k < |ps|
      ensures Delivers(chain, i, ps[k], h, ([v] + vs)[k])
    {
      if k > 0 {
        assert ps[1..][k - 1] == ps[k];
      }
    }
  }

  /** The first binding of `t` from node `from` on is a transient one. */
  predicate TransientAt(chain: seq<Node>, from: nat, t: TypeId)
    requires from <= |chain|
  {
    Lookup(chain, from, t).Some? && Lookup(chain, from, t).value.binding.Transient?
  }

  /** Each argument for a transient parameter is an object logged at or after
      position `lo`, and later transient parameters get later objects, so no
      two of them share one. */
  ghost predicate FreshTransients(chain: seq<Node>, i: nat, ps: seq<TypeId>, lo: nat, vs: seq<Obj>)
    requires i <= |chain| && |vs| == |ps|
  {
    && (forall k :: 0 <= k < |ps| && TransientAt(chain, i, ps[k]) ==> vs[k].Built? && lo <= vs[k].id)
    && (forall k, k' :: 0 <= k < k' < |ps| && TransientAt(chain, i, ps[k]) && TransientAt(chain, i, ps[k']) ==>
          vs[k].id < vs[k'].id)
  }

  lemma FreshTransientsCons(chain: seq<Node>, i: nat, ps: seq<TypeId>, lo: nat, mid: nat, v: Obj, vs: seq<Obj>)
    requires i <= |chain| && 0 < |ps| && |vs| == |ps| - 1 && lo <= mid
    requires TransientAt(chain, i, ps[0]) ==> v.Built? && lo <= v.id < mid
    requires FreshTransients(chain, i, ps[1..], mid, vs)
    ensures FreshTransients(chain, i, ps, lo, [v] + vs)
  {
    forall k | 0 < k < |ps|
      ensures ps[k] == ps[1..][k - 1] && ([v] + vs)[k] == vs[k - 1]
    {
    }
  }

  /** NonLazyBinding.AsNonLazy: read the singleton's value now. */
  function AsNonLazy(k: Container, h: Handle, stack: seq<TypeId>): (o: Outcome<Obj>)
    requires h.cell < |k.heap.cells| && Valid(k.chain, k.heap.cells)
    ensures o.stack == stack && Evolves(k.heap, o.heap) && Valid(k.chain, o.heap.cells)
    ensures o.res.Ok? ==> o.heap.cells[h.cell].state == Forced(o.res.value)
    ensures k.heap.cells[h.cell].state.Forced? ==> o == Outcome(Ok(k.heap.cells[h.cell].state.value), k.heap, stack)
  {
    Force(k.chain, h.cell, k.heap, stack)
  }
}

=== FILE: scenarios.dfy ===
/** Small worked configurations of the container, each with its outcome
    proved: a constructor choice, a shared singleton dependency, a cycle report, the owner-relative
    resolution of a fallback's binding, a lazy singleton read by its own
    factory, and a partial interface bind. */
module Scenarios {
  import opened DITypes
  import opened ConstructorPlanner
  import opened BindingRegistry
  import opened Resolver
  import opened ContainerProperties

  // Type tokens used below.
  const IA: TypeId := 1
  const IB: TypeId := 2
  const IX: TypeId := 3
  const CA: TypeId := 10
  const CB: TypeId := 20
  const CS: TypeId := 30
  const CC: TypeId := 40
  const ILogger: TypeId := 4
  const IService: TypeId := 5
  const CL: TypeId := 50
  const CR: TypeId := 60

  const NoHeap := Heap([], [])

  /** The planner skips the obsolete widest constructor and, of the two usable
      ones with two parameters, takes the earlier. */
  lemma PlannerSkipsObsoleteAndKeepsEarliest()
    ensures var ctors := [Ctor(false, [IA]), Ctor(true, [IA, IB, IX]), Ctor(false, [IB, IX]), Ctor(false, [IA, IX])];
            FindBestConstructor(Reflection(map[CA := ctors], map[]), CA) == Ok(2)
  {
    var ctors := [Ctor(false, [IA]), Ctor(true, [IA, IB, IX]), Ctor(false, [IB, IX]), Ctor(false, [IA, IX])];
    var refl := Reflection(map[CA := ctors], map[]);
    assert refl.ConstructorsOf(CA) == ctors;
    assert !ctors[0].obsolete && ctors[1].obsolete && !ctors[2].obsolete && !ctors[3].obsolete;
    assert |ctors[0].params| == 1 && |ctors[2].params| == 2 && |ctors[3].params| == 2;
    var r := FindBestConstructor(refl, CA);
    assert IsBest(ctors, 2);
    BestIsUnique(ctors, r.value, 2);
  }

  /** ILogger is a lazy singleton of CL (no parameters); IService is bound
      transiently to CR, whose constructor needs an ILogger. */
  function LoggerChain(): seq<Node>
  {
    [Node(map[ILogger := Singleton(0), IService := Transient(CR)], map[CL := Plan(0, []), CR := Plan(0, [ILogger])])]
  }

  const LoggerHeap := Heap([Cell(0, CL, Unforced)], [])

  /** The heap after the first service: the logger built first, then the service. */
  const AfterFirst := Heap([Cell(0, CL, Forced(Built(0)))], [Made(CL, 0, []), Made(CR, 0, [Built(0)])])

  /** The heap after the second service: one more service, the same logger. */
  const AfterSecond := Heap(AfterFirst.cells, AfterFirst.made + [Made(CR, 0, [Built(0)])])

  /** Two services resolved one after the other are two objects, each built
      with the one logger, which is built once, on the first resolve. */
  lemma ServicesShareLogger()
    ensures Valid(LoggerChain(), LoggerHeap.cells)
    ensures Resolve(LoggerChain(), 0, IService, LoggerHeap, []) == Outcome(Ok(Built(1)), AfterFirst, [])
    ensures Resolve(LoggerChain(), 0, IService, AfterFirst, []) == Outcome(Ok(Built(2)), AfterSecond, [])
  {
    FirstService();
    SecondService();
  }

  lemma FirstService()
    ensures Valid(LoggerChain(), LoggerHeap.cells)
    ensures Resolve(LoggerChain(), 0, IService, LoggerHeap, []) == Outcome(Ok(Built(1)), AfterFirst, [])
  {
    var chain := LoggerChain();
    assert Valid(chain, LoggerHeap.cells);
    LoggerArgument();
    assert CreateInstance(chain, 0, CR, LoggerHeap, [IService]) == Outcome(Ok(Built(1)), AfterFirst, [IService]);
    ResolveTransient(chain, 0, IService, LoggerHeap, [], 0, CR);
  }

  /** The first service's argument list: the logger, built on the spot. */
  lemma LoggerArgument()
    ensures Valid(LoggerChain(), LoggerHeap.cells)
    ensures forall p :: p in [ILogger] ==> p in AllParams(LoggerChain())
    ensures ResolveArgs(LoggerChain(), 0, [ILogger], LoggerHeap, [IService])
            == Outcome(Ok([Built(0)]), Heap([Cell(0, CL, Forced(Built(0)))], [Made(CL, 0, [])]), [IService])
  {
    var chain := LoggerChain();
    assert Valid(chain, LoggerHeap.cells);
    ParamIsKnown(chain, 0, CR);
    var hl := Heap([Cell(0, CL, Forced(Built(0)))], [Made(CL, 0, [])]);
    LoggerBuiltOnFirstRead();
    assert [IService] + [ILogger] == [IService, ILogger];
    ResolveSingleton(chain, 0, ILogger, LoggerHeap, [IService], 0, 0);
    assert Valid(chain, hl.cells);
    assert ResolveArgs(chain, 0, [], hl, [IService]) == Outcome(Ok([]), hl, [IService]);
    assert [ILogger][1..] == [] && [Built(0)] + [] == [Built(0)];
  }

  /** The first read of the logger's cell, inside the first service's build. */
  lemma LoggerBuiltOnFirstRead()
    ensures Valid(LoggerChain(), LoggerHeap.cells)
    ensures Force(LoggerChain(), 0, LoggerHeap, [IService, ILogger])
            == Outcome(Ok(Built(0)), Heap([Cell(0, CL, Forced(Built(0)))], [Made(CL, 0, [])]), [IService, ILogger])
  {
    var chain := LoggerChain();
    assert Valid(chain, LoggerHeap.cells);
    var running := Heap([Cell(0, CL, Forcing)], []);
    assert SetState(LoggerHeap, 0, Forcing) == running;
    assert Valid(chain, running.cells);
    var logged := Heap([Cell(0, CL, Forcing)], [Made(CL, 0, [])]);
    assert CreateInstance(chain, 0, CL, running, [IService, ILogger]) == Outcome(Ok(Built(0)), logged, [IService, ILogger]);
    assert SetState(logged, 0, Forced(Built(0))) == Heap([Cell(0, CL, Forced(Built(0)))], [Made(CL, 0, [])]);
  }

  lemma SecondService()
    ensures Valid(LoggerChain(), AfterFirst.cells)
    ensures Resolve(LoggerChain(), 0, IService, AfterFirst, []) == Outcome(Ok(Built(2)), AfterSecond, [])
  {
    var chain := LoggerChain();
    assert Valid(chain, AfterFirst.cells);
    ParamIsKnown(chain, 0, CR);
    assert [IService] + [ILogger] == [IService, ILogger];
    ResolveSingleton(chain, 0, ILogger, AfterFirst, [IService], 0, 0);
    assert Resolve(chain, 0, ILogger, AfterFirst, [IService]) == Outcome(Ok(Built(0)), AfterFirst, [IService]);
    assert [ILogger][1..] == [] && [Built(0)] + [] == [Built(0)];
    assert ResolveArgs(chain, 0, [], AfterFirst, [IService]) == Outcome(Ok([]), AfterFirst, [IService]);
    assert ResolveArgs(chain, 0, [ILogger], AfterFirst, [IService]) == Outcome(Ok([Built(0)]), AfterFirst, [IService]);
    assert CreateInstance(chain, 0, CR, AfterFirst, [IService]) == Outcome(Ok(Built(2)), AfterSecond, [IService]);
    ResolveTransient(chain, 0, IService, AfterFirst, [], 0, CR);
  }

  /** IA is built by CA, which needs IB; IB is built by CB, which needs IA. */
  function CycleChain(): seq<Node>
  {
    [Node(map[IA := Transient(CA), IB := Transient(CB)], map[CA := Plan(0, [IB]), CB := Plan(0, [IA])])]
  }

  /** Resolving IA reports the chain IA -> IB -> IA and builds nothing. */
  lemma CycleIsReported()
    ensures Valid(CycleChain(), [])
    ensures Resolve(CycleChain(), 0, IA, NoHeap, []) == Outcome(Err(CircularDependency([IA, IB, IA])), NoHeap, [])
  {
    var chain := CycleChain();
    assert Valid(chain, []);
    ParamIsKnown(chain, 0, CA);
    CycleInnerRequest();
    assert ResolveArgs(chain, 0, [IB], NoHeap, [IA]) == Outcome(Err(CircularDependency([IA, IB, IA])), NoHeap, [IA]);
    var ca := CreateInstance(chain, 0, CA, NoHeap, [IA]);
    assert ca == Outcome(Err(CircularDependency([IA, IB, IA])), NoHeap, [IA]);
    ResolveTransient(chain, 0, IA, NoHeap, [], 0, CA);
  }

  /** Within CA's construction, IB's constructor asks for IA again. */
  lemma CycleInnerRequest()
    ensures Valid(CycleChain(), [])
    ensures Resolve(CycleChain(), 0, IB, NoHeap, [IA]) == Outcome(Err(CircularDependency([IA, IB, IA])), NoHeap, [IA])
  {
    var chain := CycleChain();
    assert Valid(chain, []);
    ParamIsKnown(chain, 0, CB);
    assert [IA, IB] + [IA] == [IA, IB, IA];
    var inner := Resolve(chain, 0, IA, NoHeap, [IA, IB]);
    assert inner == Outcome(Err(CircularDependency([IA, IB, IA])), NoHeap, [IA, IB]);
    assert ResolveArgs(chain, 0, [IA], NoHeap, [IA, IB]) == Outcome(Err(CircularDependency([IA, IB, IA])), NoHeap, [IA, IB]);
    var cb := CreateInstance(chain, 0, CB, NoHeap, [IA, IB]);
    assert cb == Outcome(Err(CircularDependency([IA, IB, IA])), NoHeap, [IA, IB]);
    assert [IA] + [IB] == [IA, IB];
    ResolveTransient(chain, 0, IB, NoHeap, [IA], 0, CB);
  }

  /** A child binds IX; its parent binds IA transiently to CS, which needs IX. */
  function OwnerChain(): seq<Node>
  {
    [ Node(map[IX := Instance(Supplied(7))], map[]),
      Node(map[IA := Transient(CS)], map[CS := Plan(0, [IX])]) ]
  }

  /** Resolved through the child, IX is found; but IA's constructor resolves
      its parameters through the parent that owns the binding, which does not
      bind IX, so resolving IA through the child fails. */
  lemma FallbackBuildsThroughOwner()
    ensures Valid(OwnerChain(), [])
    ensures Resolve(OwnerChain(), 0, IX, NoHeap, []) == Outcome(Ok(Supplied(7)), NoHeap, [])
    ensures Resolve(OwnerChain(), 0, IA, NoHeap, []) == Outcome(Err(MissingBinding(IX)), NoHeap, [])
  {
    var chain := OwnerChain();
    assert Valid(chain, []);
    assert Lookup(chain, 0, IX) == Some(Found(0, Instance(Supplied(7))));
    InstanceReturnsSupplied(chain, 0, IX, NoHeap, [], 0, Supplied(7));
    assert Lookup(chain, 1, IX) == None;
    ParamIsKnown(chain, 1, CS);
    assert Resolve(chain, 1, IX, NoHeap, [IA]) == Outcome(Err(MissingBinding(IX)), NoHeap, [IA]);
    assert ResolveArgs(chain, 1, [IX], NoHeap, [IA]) == Outcome(Err(MissingBinding(IX)), NoHeap, [IA]);
    assert CreateInstance(chain, 1, CS, NoHeap, [IA]) == Outcome(Err(MissingBinding(IX)), NoHeap, [IA]);
    assert Lookup(chain, 0, IA) == Some(Found(1, Transient(CS)));
    ResolveTransient(chain, 0, IA, NoHeap, [], 1, CS);
  }

  /** CC implements IA and IB, both bound to its one lazy cell, and CC's
      constructor needs IB. */
  function SelfChain(): seq<Node>
  {
    [Node(map[IA := Singleton(0), IB := Singleton(0)], map[CC := Plan(0, [IB])])]
  }

  const SelfHeap := Heap([Cell(0, CC, Unforced)], [])

  /** Resolving IA starts the cell's factory, which asks for IB: IB is not on
      the stack, so no cycle is reported; the read of the running cell fails
      instead, and the failure is kept in the cell. */
  lemma SingletonReadByOwnFactory()
    ensures Valid(SelfChain(), SelfHeap.cells)
    ensures var o := Resolve(SelfChain(), 0, IA, SelfHeap, []);
            o.res == Err(ReentrantSingleton) && o.heap.cells[0].state == Faulted(ReentrantSingleton)
  {
    var chain := SelfChain();
    assert Valid(chain, SelfHeap.cells);
    var running := Heap([Cell(0, CC, Forcing)], []);
    var failed := Heap([Cell(0, CC, Faulted(ReentrantSingleton))], []);
    assert Valid(chain, running.cells);
    assert Force(chain, 0, running, [IA, IB]) == Outcome(Err(ReentrantSingleton), failed, [IA, IB]);
    ResolveSingleton(chain, 0, IB, running, [IA], 0, 0);
    assert Resolve(chain, 0, IB, running, [IA]) == Outcome(Err(ReentrantSingleton), failed, [IA]);
    assert ResolveArgs(chain, 0, [IB], running, [IA]) == Outcome(Err(ReentrantSingleton), failed, [IA]);
    assert CreateInstance(chain, 0, CC, running, [IA]) == Outcome(Err(ReentrantSingleton), failed, [IA]);
    assert SetState(SelfHeap, 0, Forcing) == running;
    ResolveSingleton(chain, 0, IA, SelfHeap, [], 0, 0);
  }

  /** Binding CC's interfaces [IA, IB] under ErrorIfExists where IB is already
      bound: IA is bound to the new cell before the bind throws on IB. */
  lemma ErrorIfExistsLeavesEarlierInterfacesBound()
    ensures var refl := Reflection(map[CC := [Ctor(false, [])]], map[CC := [IA, IB]]);
            var k := Container([Node(map[IB := Instance(Supplied(1))], map[])], NoHeap);
            var r := BindInterfacesToSelfSingleton(refl, k, 0, CC, ErrorIfExists);
            && r.res == Err(DuplicateBinding(IB))
            && r.after.chain[0].bindings == map[IA := Singleton(0), IB := Instance(Supplied(1))]
            && r.after.heap.cells == [Cell(0, CC, Unforced)]
  {
    var refl := Reflection(map[CC := [Ctor(false, [])]], map[CC := [IA, IB]]);
    var k := Container([Node(map[IB := Instance(Supplied(1))], map[])], NoHeap);
    assert refl.ConstructorsOf(CC) == [Ctor(false, [])];
    assert !refl.ConstructorsOf(CC)[0].obsolete;
    assert Plannable(refl, k.chain[0], CC);
    var xs := refl.InterfacesOf(CC);
    assert xs == [IA, IB];
    assert FirstConflict(k.chain[0].bindings, xs, 0) == 1;
    assert xs[..1] == [IA];
    var w := WriteAll(k.chain[0].bindings, [IA], Singleton(0));
    assert w.Keys == {IA, IB};
    assert w == map[IA := Singleton(0), IB := Instance(Supplied(1))];
  }
}

=== FILE: types.dfy ===
/** Vocabulary shared by the container model: runtime type tokens, the objects
    the container hands out, its error kinds, and reflection abstracted as
    fixed tables. */
module DITypes {

  /** An opaque runtime type identity, used both for contracts (interfaces)
      and for concrete types. Identity is nominal: two tokens are the same
      type exactly when they are equal. */
  type TypeId = nat

  /** An object handed out by the container: either one a caller supplied to
      an instance bind, or one the container built itself, in which case `id`
      is its position in the construction log. */
  datatype Obj = Supplied(tag: nat) | Built(id: nat)

  datatype Option<+T> = None | Some(value: T)

  /** The exceptions the container raises. */
  datatype Error =
    | DuplicateBinding(contract: TypeId)      // bind under ErrorIfExists on a bound contract
    | MissingBinding(contract: TypeId)        // no node of the fallback chain binds the contract
    | CircularDependency(chain: seq<TypeId>)  // outermost request first, the repeated type last
    | NoUsableConstructor(concrete: TypeId)   // every public constructor is [Obsolete], or there is none
    | ReentrantSingleton                      // a lazy singleton's Value was read by its own factory

  datatype Result<+T> = Ok(value: T) | Err(error: Error)

  /** One public constructor as reflection reports it: whether it carries
      [Obsolete], and its parameter types in declaration order. */
  datatype Ctor = Ctor(obsolete: bool, params: seq<TypeId>)

  /** Reflection over the program's types, as two fixed tables: the public
      constructors of each concrete type in enumeration order, and the
      interfaces each type implements. A type absent from a table has none. */
  datatype Reflection = Reflection(ctors: map<TypeId, seq<Ctor>>, interfaces: map<TypeId, seq<TypeId>>)
  {
    function ConstructorsOf(t: TypeId): seq<Ctor>
    {
      if t in ctors then ctors[t] else []
    }

    function InterfacesOf(t: TypeId): seq<TypeId>
    {
      if t in interfaces then interfaces[t] else []
    }
  }

  /** No element occurs twice. */
  ghost predicate NoDup<T>(s: seq<T>)
  {
    forall i, j :: 0 <= i < j < |s| ==> s[i] != s[j]
  }

  /** A duplicate-free sequence drawn from a finite set is no longer than the set. */
  lemma {:induction false} NoDupBoundedBySet<T>(s: seq<T>, universe: set<T>)
    requires NoDup(s)
    requires forall x :: x in s ==> x in universe
    ensures |s| <= |universe|
  {
    if s != [] {
      var last := s[|s| - 1];
      var front := s[..|s| - 1];
      assert forall x :: x in front ==> x in universe - {last} by {
        forall x | x in front
          ensures x in universe - {last}
        {
          var k :| 0 <= k < |front| && front[k] == x;
          assert s[k] == x && k < |s| - 1;
        }
      }
      NoDupBoundedBySet(front, universe - {last});
    }
  }
}
